=== FILE: README.md ===
# QR sign-in screen and class-name composer: a verified model

This project models two parts of the WHOLE HOG messaging mobile app in Dafny.

1. **The sign-in screen** (`src/components/App.tsx`, with the scanner overlay
   `src/components/App/QRScannerOverlay.tsx`). The user launches the camera
   and scans a QR code. The code's text must be JSON with four fields:
   `userId`, `username`, `securityKey` and `apiBaseUrl`. Each field is
   checked in that order, and the first failure ends the attempt with a toast.
   A valid payload becomes a redirect URL. That URL is stored in the one-record
   file `meta.json` and then followed. At the next start-up, the stored URL is
   followed at once, unless the page was opened with `?signout=true`, which
   clears the store.
2. **The class-name composer** (`src/lib/styler.ts`). It folds base classes,
   conditional map entries, toggles and extra modifiers into a deduplicated,
   insertion-ordered token set. It then renames the tokens through a style
   table and joins them with spaces.

## Layout

| file | module | what it holds |
|---|---|---|
| `wrappers.dfy` | `Wrappers` | `Option` |
| `jstext.dfy` | `JsText` | ECMAScript whitespace, `trim`, `split(/\s+/)` with empty fragments dropped, `join`, one-character `split` |
| `json.dfy` | `Json` | JSON values, own-property lookup, JavaScript `ToString`, and the `Host` of foreign functions |
| `uricomponent.dfy` | `UriComponent` | `encodeURIComponent` and `decodeURIComponent` over UTF-8 (sections 2.1 of RFC 3986 and 3 of RFC 3629) |
| `credentials.dfy` | `Credentials` | the payload validator |
| `redirect.dfy` | `Redirect` | the redirect URL and a reference reader for its query |
| `metastore.dfy` | `MetaStore` | `getSignedInUrl` / `setSignedInUrl` over `meta.json` |
| `overlay.dfy` | `Overlay` | the overlay's back arrow and its simulate hook |
| `scansession.dfy` | `ScanSession` | the screen as a state machine: start-up, toast and timer, scan handler, back arrow |
| `styler.dfy` | `Styler` | the class-name composer |

### The foreign functions

`JSON.parse`, `new URL(s)`, `String(n)` and the URL parsing behind the
`location.href` setter are not modelled. They are the fields of `Json.Host`,
and every result is stated for any host:

- `JSON.parse` returns `None` when it throws;
- `new URL(s)` becomes a predicate that holds when the constructor does not throw;
- the `location.href` setter contributes two predicates. One holds when it
  parses a string against the page's URL; when it does not, the assignment
  throws a `SyntaxError`. The other holds when the parsed URL differs from
  the page's URL only in its fragment, so the navigation stays in the same
  document.

### The screen as a state machine

The camera plugin, the file system and the splash screen become `Effect`
values, listed in the order the code issues them. The permission and scan
awaits each split a handler into two events:

- `Launch` and `PermResult` cover the permission check;
- `ScanResolved` and `ScanRejected` cover the scan.

The permission verdict and the scan content are carried by the event that
resolves the call. The `await` of a store write does not split its handler:
whether the write succeeds rides on the event that issues it (`ScanResolved`
or `Simulate`). Time is a
logical clock advanced by `Elapse`. The 7000 ms toast timer is a deadline on
that clock.

## Behaviour worth noting

- A scanned JSON `null` makes the destructuring at `App.tsx:142` throw. The
  outer catch handles the throw, so the user sees a silent return to idle,
  not the "Invalid" toast (`Credentials.Verdict.Threw`,
  `ScanSession.SilentReset`).
- A failing store write at `App.tsx:186` also ends in that catch, silently.
- A permission check that throws (`App.tsx:112`) is outside the `try`, so
  no toast is shown (`Permission.CheckFailed`).
- The success path never clears `isScanning`.
- `userId` is accepted when it is any number above 0, including fractions.
- `getSignedInUrl` returns the stored `signinUrl` unchanged even when it is
  not a string. The start-up branch then compares it with `""` by
  `!==` and assigns its string conversion to `document.location`
  (`ScanSession.Boot`). That assignment can fail in two ways:
  - An object with its own `toString` member, alone or inside an array,
    makes the conversion throw a `TypeError`
    (`ScanSession.StoredObjectWithToString`).
  - A string that the `href` setter cannot parse, such as `http://`, makes
    the assignment throw a `SyntaxError`.

  Either way the start-up function rejects, so the page neither navigates
  nor hides the splash screen. A fragment-only target such as `#top` keeps
  the page, and the splash screen also stays up.
- The username must contain a non-whitespace character, but it is passed
  on untrimmed.

## Model

| member | source | states |
|---|---|---|
| Credentials.Validate | src/components/App.tsx:131-142 | the payload is rejected as malformed exactly when `JSON.parse` throws, and the validator throws (destructuring) exactly when the payload is JSON `null` |
| Credentials.CheckFields | src/components/App.tsx:142-180 | once the payload is not `null`, the field checks never throw: every outcome is a rejection or an acceptance |
| Credentials.FirstFailureWins | src/components/App.tsx:144-180 | the payload is rejected for check `k` (userId, username, securityKey, apiBaseUrl is a string, apiBaseUrl parses as a URL) exactly when check `k` fails and every earlier check passes, whatever the later fields hold |
| Credentials.CheckFieldsAccepted | src/components/App.tsx:142-180 | a non-null payload is accepted with credential `c` exactly when its four properties hold `c`'s values and each passes its check |
| Credentials.AcceptedIff | src/components/App.tsx:131-180 | a scan is accepted exactly when it parses to an object whose `userId` is a number above 0, whose `username` is a string with a non-whitespace character, whose `securityKey` is 64 characters of `[0-9a-f]`, and whose `apiBaseUrl` is a string that parses as a URL; the credential carries the values unchanged |
| JsText.Trim | src/components/App.tsx:151 | `trim` never lengthens the string, and its result neither starts nor ends with whitespace |
| JsText.TrimSpec | src/components/App.tsx:151 | `trim` yields the infix outside of which the string is all whitespace, and the result neither starts nor ends with whitespace |
| JsText.TrimEmptyIff | src/components/App.tsx:151 | `username.trim() === ''` exactly when the username is all whitespace |
| Json.LookupSpec | src/components/App.tsx:142 | a destructured field is `undefined` exactly when no member has the key, and otherwise has the value of the last member with that key |
| Redirect.RedirectUrl | src/components/App.tsx:185 | reading the redirect URL's query gives back exactly the four parameters in order, each with the credential's value: the URL is the entry path, `?`, and the four `name=value` pairs joined by `&` |
| Redirect.QueryRoundTrip | src/components/App.tsx:185 | any four values, percent-encoded after names free of `=` and `&`, read back as those names and values |
| Redirect.SecurityKeyEncodesToItself | src/components/App.tsx:185 | a validated security key appears in the URL exactly as scanned |
| UriComponent.Encode | src/components/App.tsx:185 | `encodeURIComponent` output holds only unreserved characters and `%`, and is never shorter than its input |
| UriComponent.HexDigit | src/components/App.tsx:185 | an escape digit is an upper-case hexadecimal digit whose value is the nibble it encodes |
| UriComponent.EncodeUpperCase | src/components/App.tsx:185 | every `%` in `encodeURIComponent` output is followed by two upper-case hexadecimal digits (`%2F`, never `%2f`) |
| UriComponent.DecodeEncode | src/components/App.tsx:185 | `decodeURIComponent(encodeURIComponent(s)) == s` for every string of scalar values |
| UriComponent.EncodedHasNoDelimiters | src/components/App.tsx:185 | an encoded value never contains `&`, `=`, `?`, `#`, `+` or a space |
| UriComponent.EncodeIdentityIff | src/components/App.tsx:185 | encoding leaves a string unchanged exactly when all of its characters are unreserved |
| UriComponent.EncodeAppend | src/components/App.tsx:185 | encoding a concatenation is concatenating the encodings |
| MetaStore.ReadSignedInUrl | src/components/App.tsx:24-41 | a missing or unreadable file reads as `""`; a present, non-null `signinUrl` reads back as stored; the result is never `null` |
| MetaStore.Written | src/components/App.tsx:43-51 | `setSignedInUrl(u)` leaves a document whose `signinUrl` is `u` and which holds no other key |
| MetaStore.ReadAfterWrite | src/components/App.tsx:24-51 | reading after `setSignedInUrl(u)` yields `u` |
| MetaStore.ReadsEmptyIff | src/components/App.tsx:24-41 | the read is `""` exactly when the file is missing or unreadable, the key is missing, or it holds `null` or `""` |
| ScanSession.Boot | src/components/App.tsx:68-87 | with `signout=true` the page stays and the store is cleared when the write succeeds; a failed clearing write leaves the file as it was, with the write as the only effect; otherwise the page is left exactly when the stored value is not `""`, its string conversion does not throw, the `href` setter accepts the string, and the target is not in the same document; the target is that conversion and the only effect. Start-up ends with no effect at all exactly when the assignment throws. The splash hide is scheduled exactly when the clearing write succeeded, or, without sign-out, when the stored value is `""` |
| ScanSession.StartupBranches | src/components/App.tsx:68-87 | after signing out the store reads back `""` with no redirect; a non-empty stored string that the setter accepts and that names another document is followed as stored, with no splash hide; a stored value whose assignment throws leaves the page with no effect; a fragment-only target navigates within the page, which stays, with no splash hide |
| ScanSession.StoredObjectWithToString | src/components/App.tsx:79 | a stored `{"toString": 0}` under `signinUrl` makes the assignment to `document.location` throw: no navigation, no splash hide, the store untouched |
| Json.ToJsString | src/components/App.tsx:79 | the string conversion throws exactly when the value is an object with its own `toString`, or an array holding such a value at any depth; a string converts to itself and any other object to `"[object Object]"`; `null`, booleans and numbers print as `"null"`, `"true"`/`"false"` and `String(n)`; an array joins its elements' strings with `","`, a `null` element printing as nothing |
| Json.Property | src/components/App.tsx:142 | only an object has properties, and a property that is present is the value of one of the object's own members under that key |
| ScanSession.BootInv | src/components/App.tsx:68-87 | every start-up state satisfies the screen invariant |
| ScanSession.Reset | src/components/App.tsx:192-193 | the reset shared by the catch block and the back arrow leaves scan mode and restores the background, and changes nothing else |
| ScanSession.LaunchClicked | src/components/App.tsx:108-112 | from the idle screen, the toast is hidden and its timer cancelled and only the permission check is issued; with a scan already up or a call pending, nothing happens |
| ScanSession.PermissionSettled | src/components/App.tsx:112-121 | a granted permission hides the background, enters scan mode and starts the camera; a refusal shows "Camera permissions required" for 7000 ms; a rejected check ends the handler with no toast; only a granted one leaves scan mode on |
| ScanSession.AfterScan | src/components/App.tsx:121-187 | a resolved scan always restores the background first and ends the pending scan; no content shows "No QR code found" and leaves scan mode; the page navigates exactly when there is content, it is accepted and the store write succeeds |
| ScanSession.Conclude | src/components/App.tsx:131-194 | a rejection shows "Invalid QR code detected" for 7000 ms; only an acceptance with a successful write changes the store, navigates, and keeps scan mode, issuing show-background, write, navigate in that order; every other verdict leaves the toast, the store and navigation as they were and leaves scan mode |
| ScanSession.ScanFailed | src/components/App.tsx:188-194 | a rejected scan leaves scan mode, restores the background, ends the pending scan and changes nothing else |
| ScanSession.BackClicked | src/components/App.tsx:197-205 | during a scan the back arrow stops the camera, restores the background and leaves scan mode, and changes nothing else; the pending scan stays pending until its rejection arrives |
| ScanSession.SimulateClicked | src/components/App/QRScannerOverlay.tsx:10-17 | the page navigates exactly when the overlay is up, the query is non-empty and the write succeeds, and then to the entry path plus `?` plus the query, which the store reads back; otherwise nothing changes and nothing navigates |
| ScanSession.Step | src/components/App.tsx:89-205 | once the page has navigated away no event changes anything, and only the passing of time moves the clock, forward |
| ScanSession.Run | src/components/App.tsx:89-205 | over a run of events the clock never goes back and advances by at most the time the run lets elapse |
| ScanSession.ClearTimer | src/components/App.tsx:89-92 | the pending hide is cancelled and nothing else changes |
| ScanSession.ShowToast | src/components/App.tsx:94-106 | the toast is visible with the text of the chosen entry of the fixed three-entry map, a single hide is due 7000 ms from now, and nothing else changes |
| ScanSession.ToastReplaces | src/components/App.tsx:94-106 | a second toast replaces the first, deadline included |
| ScanSession.Advance | src/components/App.tsx:103-105 | time passes; a pending hide whose deadline is reached hides the toast, a toast before its deadline is left as it was, any hide still pending lies in the future, and nothing but the clock, the toast's visibility and the timer changes |
| ScanSession.ToastLifetime | src/components/App.tsx:103-105 | a toast stays visible with its text for less than 7000 ms and is hidden at 7000 ms |
| ScanSession.LaunchClearsToast | src/components/App.tsx:108-112 | launching hides the toast and cancels its timer before the permission check |
| ScanSession.PermissionNotGranted | src/components/App.tsx:108-118 | a refused permission shows "Camera permissions required"; a rejected check shows nothing; either way the camera never starts and the background is never hidden |
| ScanSession.NoContent | src/components/App.tsx:123-129 | a scan with no content shows "No QR code found" and returns to idle |
| ScanSession.InvalidPayload | src/components/App.tsx:131-180 | a payload that fails to parse or fails any check shows "Invalid QR code detected" for 7000 ms, restores the background, leaves scan mode and leaves the store unchanged |
| ScanSession.SilentReset | src/components/App.tsx:142-194 | a `null` payload or a failing store write ends in the shared reset with no new toast and no navigation |
| ScanSession.ConcludeSilent | src/components/App.tsx:186-194 | a throw after the checks leaves the screen reset, with the background restored and no navigation |
| ScanSession.SuccessPath | src/components/App.tsx:182-187 | a valid payload restores the background, stores the redirect URL and then navigates to it; the store reads back the target, and scan mode stays on |
| ScanSession.ConcludeWrites | src/components/App.tsx:183-187 | within the conclusion, every navigation is preceded by a write of the same URL, and the store then holds it |
| ScanSession.StepWritesBeforeNavigating | src/components/App.tsx:183-187 | for every event, a navigation is preceded by a write of the same URL, and the store reads back the navigation target |
| ScanSession.ScanRejectedResets | src/components/App.tsx:188-194 | a rejected scan takes the shared reset and leaves the toast, its timer and the store as they were |
| ScanSession.ResetIdempotent | src/components/App.tsx:197-205 | applying the shared reset twice equals applying it once |
| ScanSession.BackThenRejected | src/components/App.tsx:197-205 | the back arrow stops the camera and resets at once; the rejection it causes then changes nothing but the pending scan |
| ScanSession.LaunchInv | src/components/App.tsx:108-110 | launching keeps the screen invariant |
| ScanSession.PermissionInv | src/components/App.tsx:112-118 | the permission outcome keeps the screen invariant |
| ScanSession.ScanSettledInv | src/components/App.tsx:121-187 | a resolved scan keeps the screen invariant |
| ScanSession.ConcludeInv | src/components/App.tsx:131-194 | every verdict's conclusion keeps the screen invariant |
| ScanSession.ScanFailedInv | src/components/App.tsx:188-194 | a rejected scan keeps the screen invariant |
| ScanSession.BackInv | src/components/App.tsx:197-205 | the back arrow keeps the screen invariant |
| ScanSession.AdvanceInv | src/components/App.tsx:103-105 | the passing of time keeps the screen invariant |
| ScanSession.StepInv | src/components/App.tsx:89-205 | every event keeps the invariant: the background is hidden only while scanning, a pending hide belongs to a visible toast and lies ahead, a visible toast shows one of the three messages, and a navigation target is what the store reads back |
| ScanSession.RunInv | src/components/App.tsx:89-205 | every run of events keeps the invariant |
| ScanSession.ReachableInv | src/components/App.tsx:68-205 | every state reachable from start-up satisfies the invariant |
| ScanSession.NavigationIsFinal | src/components/App.tsx:187 | once the page has navigated away, no event changes anything |
| ScanSession.OverlayEvent | src/components/App/QRScannerOverlay.tsx:23-27 | the back arrow delivers the back click; the text area delivers the simulate click |
| ScanSession.BackArrowIsBackClick | src/components/App/QRScannerOverlay.tsx:23 | a click on the overlay's back arrow does exactly what the screen's back handler does |
| ScanSession.SimulateOutcome | src/components/App/QRScannerOverlay.tsx:10-17 | an empty query does nothing; a non-empty one writes the entry path plus the query and then navigates there, and the store reads back the target |
| ScanSession.SimulateInv | src/components/App/QRScannerOverlay.tsx:10-17 | the simulate hook keeps the screen invariant |
| Overlay.HandlerOf | src/components/App/QRScannerOverlay.tsx:23-27 | a click reaches `onBackClick` exactly when it is on the back arrow |
| Overlay.SimulatedRedirect | src/components/App/QRScannerOverlay.tsx:11-13 | there is no redirect exactly when the query is empty; otherwise the redirect is the entry path, `?` and the query verbatim |
| Overlay.SimulatedRedirectInjective | src/components/App/QRScannerOverlay.tsx:13 | distinct queries give distinct redirects: nothing is dropped or rewritten |
| JsText.Words | src/lib/styler.ts:11 | the fragments of `split(/\s+/)` that survive the filter are all words, and together they hold every non-whitespace character in order |
| JsText.WordsAtWhitespace | src/lib/styler.ts:11 | every whitespace character separates the fragments before it from those after it, so no fragment spans whitespace |
| JsText.WordsOfWord | src/lib/styler.ts:11 | a string with no whitespace that is not empty is exactly one fragment |
| JsText.WordsOfJoin | src/lib/styler.ts:11-21 | splitting a space-joined list of words gives the list back |
| Styler.AddAll | src/lib/styler.ts:8-11 | adding classes keeps each token once, keeps the earlier tokens as a prefix, holds exactly the old and new tokens, and lists them in order of first occurrence |
| Styler.AddClasses | src/lib/styler.ts:10-12 | adding a class string keeps the earlier tokens as a prefix, adds no duplicate, and holds exactly the old tokens and the string's whitespace-separated classes |
| Styler.AddAllAppend | src/lib/styler.ts:11 | adding two lists in turn is adding their concatenation |
| Styler.AddAllPresent | src/lib/styler.ts:11 | adding tokens already present changes nothing |
| Styler.InMapContribution | src/lib/styler.ts:16 | a class comes from the map exactly when some entry is true and its key holds that class; a false entry contributes nothing |
| Styler.AddMapClassesIsAddAll | src/lib/styler.ts:16 | the map entries add exactly their contribution, in entry order |
| Styler.InToggleContribution | src/lib/styler.ts:17 | a class comes from the toggles exactly when some toggle's state selects a string holding it |
| Styler.ToggleChoice | src/lib/styler.ts:17 | a toggle adds exactly the classes of `on` when its state holds and of `off` otherwise |
| Styler.AddToggleClassesIsAddAll | src/lib/styler.ts:17 | the toggles add exactly their contribution, in list order |
| Styler.AddModifier | src/lib/styler.ts:14-18 | adding a modifier keeps the earlier tokens as a prefix, adds no duplicate, and holds exactly the old tokens and the modifier's contribution |
| Styler.AddModifierIsAddAll | src/lib/styler.ts:14-18 | a modifier adds its base classes, then its true map entries, then its toggles |
| Styler.AddModifierIdempotent | src/lib/styler.ts:14-18 | adding the same modifier twice gives the tokens of adding it once |
| Styler.AddModifiersIsAddAll | src/lib/styler.ts:33 | the modifiers add their contributions in argument order |
| Styler.InContributions | src/lib/styler.ts:26-33 | a class is contributed by a list of modifiers exactly when one of them contributes it |
| Styler.ContributionsAreWords | src/lib/styler.ts:11 | no contributed class is empty or holds whitespace |
| Styler.TokensSpec | src/lib/styler.ts:25-35 | a composer call yields every contributed class exactly once, nothing else and no empty token, in first-contribution order |
| Styler.ClassName | src/lib/styler.ts:20-22 | when every renamed token is a single class, the class string splits back into the renamed tokens in order |
| Styler.Compose | src/lib/styler.ts:25-36 | the class string is empty exactly when the call contributes no class |
| Styler.S | src/lib/styler.ts:38 | the class string of the default composer splits back into exactly the tokens of the call |
| Styler.Rename | src/lib/styler.ts:21 | a token is replaced by its style name when that name is non-empty, and kept otherwise |
| Styler.ComposeRenames | src/lib/styler.ts:20-35 | when every non-empty style name is a single class, the class string splits back into the renamed tokens in order |
| Styler.SJoinsTokens | src/lib/styler.ts:38 | with the empty style table, the class string is the tokens, unrenamed, joined by single spaces |

## Left out

- JSX rendering, layout and the `Icon` component are presentation only. The
  rendered `isScanning` and toast classes come from `Styler`, which is modelled.
- `BarcodeScanner`, `Filesystem`, `SplashScreen` and `FileReader` are not
  modelled. Their calls are effects, and their results arrive with events.
- `JSON.parse`, the URL parser behind `new URL`, and `String(number)` are
  host functions.
- `userId` is a mathematical real compared with `> 0`. IEEE double semantics
  are not modelled, and `String(userId)` is left to the host.
- The store is modelled at the level of the JSON document it holds. This
  takes `JSON.parse(JSON.stringify(x))` to give `x` back. `blobToText` and
  every failed read become `Unreadable`.
- A failed write is taken to leave the file as it was.
- Handlers never interleave: events are handled one at a time.
  - A second `Launch` while a permission check or a scan is pending is
    ignored. The source would start a second handler.
  - Back and simulate clicks take effect only while the overlay is on screen.
- The build-time `REACT_APP_SIMULATE_QR_CODE_QUERY` is an event parameter.
- The `signout` value that `URLSearchParams` reads is a parameter of
  `ScanSession.Boot`.
- The 200 ms delay before `SplashScreen.hide()` is reduced to one
  `ScheduleSplashHide` effect.
- Console logging changes no state and is left out.
- Styler assumes no class name is integer-like and none is inherited from
  `Object.prototype`. Under that assumption the object's key order is
  insertion order, and `styles[x]` reads only the table's own entries. A map
  of classes is the sequence of its entries, one per key, in key order.
- The redirect URLs that the scan handler and the simulate hook store and
  follow are path-absolute strings, `/whm_app/index.html?…`. The model takes
  the `href` setter to accept them and to leave the sign-in page. Only the
  start-up branch asks the host.
- Lone surrogates are not modelled, because Dafny characters are Unicode
  scalar values. In the source, a `\ud800` escape in a scanned `username` or
  `apiBaseUrl` passes the field checks. `encodeURIComponent` then throws a
  `URIError` at `App.tsx:185`, which the outer catch turns into a silent
  reset instead of a navigation. For the same reason, the replacement of
  lone surrogates when a stored string is assigned to `document.location` is
  not modelled.
- `ensurePermission` asks the plugin and returns whether permission was
  granted. The model keeps only the three outcomes in `Permission`.
- Credentials.CheckFields: its own contract states only that the checks never
  throw. Which check rejects, and what is accepted, are stated by
  `Credentials.FirstFailureWins` and `Credentials.CheckFieldsAccepted`.

=== FILE: credentials.dfy ===
/** The payload validator of the sign-in scan (`src/components/App.tsx`,
    lines 131-180): the scanned text is parsed as JSON, destructured into
    four fields, and the fields are checked in a fixed order. The first
    failing check ends the attempt. */
module Credentials {
  import opened Wrappers
  import opened Json
  import JsText

  /** The four fields once every check has passed, passed on verbatim. */
  datatype Credential = Credential(userId: real, username: string, securityKey: string, apiBaseUrl: string)

  /** Which check failed. Only the logged message depends on it. */
  datatype Rejection =
    | MalformedJson
    | BadUserId
    | BadUsername
    | BadSecurityKey
    | ApiBaseUrlNotString
    | ApiBaseUrlNotUrl

  /** `Threw` is the `TypeError` that destructuring a JSON `null` raises:
      it escapes the checks altogether. */
  datatype Verdict = Accepted(credential: Credential) | Rejected(reason: Rejection) | Threw

  predicate IsLowerHexDigit(c: char) {
    ('0' <= c <= '9') || ('a' <= c <= 'f')
  }

  /** `typeof userId === 'number' && userId > 0`. */
  predicate UserIdOk(f: Option<JsonValue>) {
    f.Some? && f.value.JNumber? && f.value.n > 0.0
  }

  /** `typeof username === 'string' && username.trim() !== ''`. */
  predicate UsernameOk(f: Option<JsonValue>) {
    f.Some? && f.value.JString? && JsText.Trim(f.value.s) != ""
  }

  /** Exactly 64 characters, each in `[0-9a-f]`. */
  predicate IsSecurityKey(s: string) {
    |s| == 64 && forall k :: 0 <= k < |s| ==> IsLowerHexDigit(s[k])
  }

  /** `typeof securityKey === 'string'`, of length 64, matching `/^[0-9a-f]{64}$/`. */
  predicate SecurityKeyOk(f: Option<JsonValue>) {
    f.Some? && f.value.JString? && IsSecurityKey(f.value.s)
  }

  predicate ApiBaseUrlIsString(f: Option<JsonValue>) {
    f.Some? && f.value.JString?
  }

  /** Checks the destructured fields of a non-null payload `v`, in the order the screen checks them. */
  function CheckFields(host: Host, v: JsonValue): (r: Verdict)
    ensures !r.Threw?
  {
    var userId, username := Property(v, "userId"), Property(v, "username");
    var securityKey, apiBaseUrl := Property(v, "securityKey"), Property(v, "apiBaseUrl");
    if !UserIdOk(userId) then Rejected(BadUserId)
    else if !UsernameOk(username) then Rejected(BadUsername)
    else if !SecurityKeyOk(securityKey) then Rejected(BadSecurityKey)
    else if !ApiBaseUrlIsString(apiBaseUrl) then Rejected(ApiBaseUrlNotString)
    else if !host.parsesAsUrl(apiBaseUrl.value.s) then Rejected(ApiBaseUrlNotUrl)
    else Accepted(Credential(userId.value.n, username.value.s, securityKey.value.s, apiBaseUrl.value.s))
  }

  /** The whole validator applied to the scanned text `content`. Only a
      parse failure yields `MalformedJson`, and only a JSON `null` throws. */
  function Validate(host: Host, content: string): (r: Verdict)
    ensures r == Rejected(MalformedJson) <==> host.parseJson(content).None?
    ensures r.Threw? <==> host.parseJson(content) == Some(JNull)
  {
    var parsed := host.parseJson(content);
    if parsed.None? then Rejected(MalformedJson)
    else if parsed.value.JNull? then Threw
    else CheckFields(host, parsed.value)
  }

  // ---------------------------------------------------------------------
  // The check order, stated independently of the if-chain above

  /** Whether check number `k` (0 = userId ... 4 = apiBaseUrl parses as a URL) passes. */
  predicate Passes(host: Host, v: JsonValue, k: nat)
    requires k < 5
  {
    if k == 0 then UserIdOk(Property(v, "userId"))
    else if k == 1 then UsernameOk(Property(v, "username"))
    else if k == 2 then SecurityKeyOk(Property(v, "securityKey"))
    else
      var f := Property(v, "apiBaseUrl");
      ApiBaseUrlIsString(f) && (k == 4 ==> host.parsesAsUrl(f.value.s))
  }

  /** The rejection that check number `k` reports. */
  function ReasonOf(k: nat): Rejection
    requires k < 5
  {
    [BadUserId, BadUsername, BadSecurityKey, ApiBaseUrlNotString, ApiBaseUrlNotUrl][k]
  }

  lemma PassesUnfolded(host: Host, v: JsonValue)
    ensures Passes(host, v, 0) == UserIdOk(Property(v, "userId"))
    ensures Passes(host, v, 1) == UsernameOk(Property(v, "username"))
    ensures Passes(host, v, 2) == SecurityKeyOk(Property(v, "securityKey"))
    ensures Passes(host, v, 3) == ApiBaseUrlIsString(Property(v, "apiBaseUrl"))
    ensures Passes(host, v, 4) == (ApiBaseUrlIsString(Property(v, "apiBaseUrl"))
                                   && host.parsesAsUrl(Property(v, "apiBaseUrl").value.s))
  {
  }

  /** Each rejection, in terms of the numbered checks. */
  lemma RejectionChain(host: Host, v: JsonValue)
    ensures var r := CheckFields(host, v);
            var p0, p1, p2 := Passes(host, v, 0), Passes(host, v, 1), Passes(host, v, 2);
            var p3, p4 := Passes(host, v, 3), Passes(host, v, 4);
            && (r == Rejected(BadUserId) <==> !p0)
            && (r == Rejected(BadUsername) <==> p0 && !p1)
            && (r == Rejected(BadSecurityKey) <==> p0 && p1 && !p2)
            && (r == Rejected(ApiBaseUrlNotString) <==> p0 && p1 && p2 && !p3)
            && (r == Rejected(ApiBaseUrlNotUrl) <==> p0 && p1 && p2 && p3 && !p4)
  {
    PassesUnfolded(host, v);
  }

  /** The first-failure rule for a verdict `r` over five check outcomes
      `b`, independent of what the checks are. */
  lemma FirstOfFive(r: Verdict, b: seq<bool>, k: nat)
    requires |b| == 5 && k < 5
    requires r == Rejected(BadUserId) <==> !b[0]
    requires r == Rejected(BadUsername) <==> b[0] && !b[1]
    requires r == Rejected(BadSecurityKey) <==> b[0] && b[1] && !b[2]
    requires r == Rejected(ApiBaseUrlNotString) <==> b[0] && b[1] && b[2] && !b[3]
    requires r == Rejected(ApiBaseUrlNotUrl) <==> b[0] && b[1] && b[2] && b[3] && !b[4]
    ensures r == Rejected(ReasonOf(k)) <==> !b[k] && forall j :: 0 <= j < k ==> b[j]
  {
    if k == 1 {
      assert (forall j :: 0 <= j < k ==> b[j]) <==> b[0];
    } else if k == 2 {
      assert (forall j :: 0 <= j < k ==> b[j]) <==> b[0] && b[1];
    } else if k == 3 {
      assert (forall j :: 0 <= j < k ==> b[j]) <==> b[0] && b[1] && b[2];
    } else if k == 4 {
      assert (forall j :: 0 <= j < k ==> b[j]) <==> b[0] && b[1] && b[2] && b[3];
    }
  }

  /** First failure wins: a payload is rejected for check `k` exactly when
      check `k` fails and every earlier check passes, whatever the later
      fields hold. */
  lemma FirstFailureWins(host: Host, v: JsonValue, k: nat)
    requires k < 5
    ensures CheckFields(host, v) == Rejected(ReasonOf(k))
            <==> !Passes(host, v, k) && forall j :: 0 <= j < k ==> Passes(host, v, j)
  {
    var b := [Passes(host, v, 0), Passes(host, v, 1), Passes(host, v, 2), Passes(host, v, 3), Passes(host, v, 4)];
    assert CheckFields(host, v) == Rejected(ReasonOf(k)) <==> !b[k] && forall j :: 0 <= j < k ==> b[j] by {
      RejectionChain(host, v);
      FirstOfFive(CheckFields(host, v), b, k);
    }
    assert forall j :: 0 <= j < 5 ==> b[j] == Passes(host, v, j) by {
      assert b[0] == Passes(host, v, 0) && b[1] == Passes(host, v, 1) && b[2] == Passes(host, v, 2);
      assert b[3] == Passes(host, v, 3) && b[4] == Passes(host, v, 4);
    }
  }

  /** The fields of `v`, read as a credential, pass every check. */
  predicate Carries(host: Host, v: JsonValue, c: Credential) {
    && Property(v, "userId") == Some(JNumber(c.userId)) && c.userId > 0.0
    && Property(v, "username") == Some(JString(c.username)) && JsText.Trim(c.username) != ""
    && Property(v, "securityKey") == Some(JString(c.securityKey)) && IsSecurityKey(c.securityKey)
    && Property(v, "apiBaseUrl") == Some(JString(c.apiBaseUrl)) && host.parsesAsUrl(c.apiBaseUrl)
  }

  lemma CheckFieldsAccepted(host: Host, v: JsonValue, c: Credential)
    ensures CheckFields(host, v) == Accepted(c) <==> Carries(host, v, c)
  {
    var userId, username := Property(v, "userId"), Property(v, "username");
    var securityKey, apiBaseUrl := Property(v, "securityKey"), Property(v, "apiBaseUrl");
    if Carries(host, v, c) {
      assert UserIdOk(userId) && UsernameOk(username);
      assert SecurityKeyOk(securityKey) && ApiBaseUrlIsString(apiBaseUrl);
    }
    if CheckFields(host, v) == Accepted(c) {
      assert UserIdOk(userId) && UsernameOk(username);
      assert SecurityKeyOk(securityKey) && ApiBaseUrlIsString(apiBaseUrl);
      assert c == Credential(userId.value.n, username.value.s, securityKey.value.s, apiBaseUrl.value.s);
    }
  }

  /** A payload is accepted exactly when it parses to an object whose four
      fields have the right types and formats: `userId` a number above 0,
      `username` a string with a non-whitespace character, `securityKey`
      64 lower-case hex digits, `apiBaseUrl` a string that parses as a URL.
      The credential carries the fields unchanged (`username` is not trimmed). */
  lemma AcceptedIff(host: Host, content: string, c: Credential)
    ensures Validate(host, content) == Accepted(c) <==>
      && host.parseJson(content).Some?
      && host.parseJson(content).value.JObject?
      && var members := host.parseJson(content).value.members;
      && Lookup(members, "userId") == Some(JNumber(c.userId)) && c.userId > 0.0
      && Lookup(members, "username") == Some(JString(c.username))
      && (exists i :: 0 <= i < |c.username| && !JsText.IsJsWhitespace(c.username[i]))
      && Lookup(members, "securityKey") == Some(JString(c.securityKey))
      && |c.securityKey| == 64
      && (forall i :: 0 <= i < 64 ==> IsLowerHexDigit(c.securityKey[i]))
      && Lookup(members, "apiBaseUrl") == Some(JString(c.apiBaseUrl))
      && host.parsesAsUrl(c.apiBaseUrl)
  {
    JsText.TrimEmptyIff(c.username);
    var parsed := host.parseJson(content);
    if parsed.Some? && !parsed.value.JNull? {
      CheckFieldsAccepted(host, parsed.value, c);
    }
  }
}

=== FILE: json.dfy ===
/** JSON values as `JSON.parse` produces them, JavaScript property lookup on
    them, and the `ToString` coercion a value undergoes when it is assigned
    to `document.location`. Parsing itself and number formatting are
    foreign; they arrive through `Host`. */
module Json {
  import opened Wrappers
  import JsText

  /** A parsed JSON value. Numbers are kept as mathematical reals: no NaN,
      infinities or rounding. Object members keep their textual order,
      duplicates included. */
  datatype JsonValue =
    | JNull
    | JBool(b: bool)
    | JNumber(n: real)
    | JString(s: string)
    | JArray(items: seq<JsonValue>)
    | JObject(members: seq<(string, JsonValue)>)

  /** The foreign functions the core calls but does not define:
      `JSON.parse` (`None` when it throws), "`new URL(s)` does not throw",
      `String(n)` for a number, and two questions about the page's
      `location.href` setter: does it parse `s` against the page's URL
      (it throws a `SyntaxError` otherwise), and does the result differ from
      the page's URL only in its fragment (a same-document navigation). */
  datatype Host = Host(
    parseJson: string -> Option<JsonValue>,
    parsesAsUrl: string -> bool,
    numberToString: real -> string,
    parsesAsLocation: string -> bool,
    sameDocument: string -> bool)

  /** Own-property lookup on an object built by `JSON.parse`: a repeated key
      keeps the value given last. `None` is `undefined`. */
  function Lookup(members: seq<(string, JsonValue)>, key: string): Option<JsonValue>
    decreases |members|
  {
    if members == [] then None
    else
      var last := members[|members| - 1];
      if last.0 == key then Some(last.1) else Lookup(members[..|members| - 1], key)
  }

  /** The lookup is `undefined` exactly when no member has the key, and
      otherwise answers with the value of the last member that has it. */
  lemma {:induction false} LookupSpec(members: seq<(string, JsonValue)>, key: string)
    ensures Lookup(members, key).None? <==> forall i :: 0 <= i < |members| ==> members[i].0 != key
    ensures Lookup(members, key).Some? ==>
              exists i :: 0 <= i < |members| && members[i] == (key, Lookup(members, key).value)
                          && forall j :: i < j < |members| ==> members[j].0 != key
    decreases |members|
  {
    if members != [] {
      var init := members[..|members| - 1];
      LookupSpec(init, key);
      if members[|members| - 1].0 != key {
        if Lookup(init, key).Some? {
          var i :| 0 <= i < |init| && init[i] == (key, Lookup(init, key).value)
                   && forall j :: i < j < |init| ==> init[j].0 != key;
          assert members[i] == init[i];
        }
        forall i | 0 <= i < |members| - 1 ensures members[i] == init[i] { }
      } else {
        assert members[|members| - 1] == (key, Lookup(members, key).value);
      }
    }
  }

  /** `v.key` for a non-null value: objects answer from their own members;
      every other JSON value has no such property. The key names used by
      the core are not inherited from `Object.prototype`. */
  function Property(v: JsonValue, key: string): (r: Option<JsonValue>)
    ensures !v.JObject? ==> r.None?
    ensures r.Some? ==> v.JObject? && (key, r.value) in v.members
  {
    if v.JObject? then LookupSpec(v.members, key); Lookup(v.members, key) else None
  }

  const ToStringKey: string := "toString"

  /** `ToString` throws a `TypeError` on an object that has an own
      `toString` member: `JSON.parse` never produces a callable, so the
      conversion falls through to `valueOf`, which returns the object
      itself. `Array.prototype.join` converts every non-null element, so an
      array throws when one of its elements does. */
  predicate ConversionThrows(v: JsonValue)
    decreases v
  {
    match v
    case JObject(members) => exists i :: 0 <= i < |members| && members[i].0 == ToStringKey
    case JArray(items) => exists i :: 0 <= i < |items| && ConversionThrows(items[i])
    case _ => false
  }

  /** JavaScript `ToString` on a JSON value: arrays join their elements
      with "," (null elements print as nothing), objects print as
      "[object Object]"; `None` is the `TypeError` of an own `toString`. */
  function ToJsString(host: Host, v: JsonValue): (r: Option<string>)
    ensures r.None? <==> ConversionThrows(v)
    ensures v.JString? ==> r == Some(v.s)
    ensures v.JObject? && r.Some? ==> r.value == "[object Object]"
    ensures v.JNull? ==> r == Some("null")
    ensures v.JBool? ==> r == Some(if v.b then "true" else "false")
    ensures v.JNumber? ==> r == Some(host.numberToString(v.n))
    ensures v.JArray? && r.Some? ==>
              r.value == JsText.Join(seq(|v.items|, i requires 0 <= i < |v.items| =>
                                           if v.items[i].JNull? then "" else ToJsString(host, v.items[i]).GetOr("")), ",")
    decreases v
  {
    match v
    case JNull => Some("null")
    case JBool(b) => Some(if b then "true" else "false")
    case JNumber(n) => Some(host.numberToString(n))
    case JString(s) => Some(s)
    case JArray(items) =>
      var parts := seq(|items|, i requires 0 <= i < |items| =>
                         if items[i].JNull? then Some("") else ToJsString(host, items[i]));
      assert forall i :: 0 <= i < |items| ==> (parts[i].None? <==> ConversionThrows(items[i]));
      if forall i :: 0 <= i < |parts| ==> parts[i].Some? then
        var strs := seq(|parts|, i requires 0 <= i < |parts| => parts[i].GetOr(""));
        assert strs == seq(|items|, i requires 0 <= i < |items| =>
                             if items[i].JNull? then "" else ToJsString(host, items[i]).GetOr(""));
        Some(JsText.Join(strs, ","))
      else None
    case JObject(members) =>
      LookupSpec(members, ToStringKey);
      if Lookup(members, ToStringKey).Some? then None else Some("[object Object]")
  }
}

=== FILE: jstext.dfy ===
/** ECMAScript string primitives the core relies on: the `\s` / `trim`
    whitespace set, `split(/\s+/)` followed by dropping empty fragments,
    `Array.prototype.join`, and first-occurrence search and splitting. */
module JsText {

  /** ECMAScript WhiteSpace and LineTerminator code points: the set matched
      by the regular-expression class `\s` and stripped by `String.prototype.trim`. */
  predicate IsJsWhitespace(c: char) {
    || c == '\t' || c == '\n' || c == '\U{B}' || c == '\U{C}' || c == '\r'
    || c == ' ' || c == '\U{A0}' || c == '\U{1680}'
    || ('\U{2000}' <= c <= '\U{200A}')
    || c == '\U{2028}' || c == '\U{2029}' || c == '\U{202F}' || c == '\U{205F}'
    || c == '\U{3000}' || c == '\U{FEFF}'
  }

  predicate AllWhitespace(s: string) {
    forall k :: 0 <= k < |s| ==> IsJsWhitespace(s[k])
  }

  /** `trimStart`: the suffix of `s` left after dropping leading whitespace. */
  function TrimStart(s: string): (r: string)
    ensures |r| <= |s| && r == s[|s| - |r|..]
    ensures AllWhitespace(s[..|s| - |r|])
    ensures r != [] ==> !IsJsWhitespace(r[0])
    decreases |s|
  {
    if s != [] && IsJsWhitespace(s[0]) then TrimStart(s[1..]) else s
  }

  /** `trimEnd`: the prefix of `s` left after dropping trailing whitespace. */
  function TrimEnd(s: string): (r: string)
    ensures |r| <= |s| && r == s[..|r|]
    ensures AllWhitespace(s[|r|..])
    ensures r != [] ==> !IsJsWhitespace(r[|r| - 1])
    decreases |s|
  {
    if s != [] && IsJsWhitespace(s[|s| - 1]) then
      var r := TrimEnd(s[..|s| - 1]);
      assert s[..|s| - 1][..|r|] == s[..|r|];
      assert s[|r|..] == s[..|s| - 1][|r|..] + [s[|s| - 1]];
      r
    else s
  }

  /** `String.prototype.trim`: `s` with whitespace removed at both ends. */
  function Trim(s: string): (r: string)
    ensures |r| <= |s|
    ensures r != [] ==> !IsJsWhitespace(r[0]) && !IsJsWhitespace(r[|r| - 1])
  {
    var a := TrimStart(s);
    var r := TrimEnd(a);
    assert r != [] ==> r[0] == a[0];
    r
  }

  /** Stripping a whitespace prefix and then a whitespace suffix leaves an
      infix outside of which everything is whitespace. */
  lemma StrippedInfix(s: string, a: string, r: string)
    requires |a| <= |s| && a == s[|s| - |a|..] && AllWhitespace(s[..|s| - |a|])
    requires |r| <= |a| && r == a[..|r|] && AllWhitespace(a[|r|..])
    ensures exists i, j :: 0 <= i <= j <= |s| && r == s[i..j]
                           && AllWhitespace(s[..i]) && AllWhitespace(s[j..])
  {
    var i := |s| - |a|;
    var j := i + |r|;
    assert r == s[i..j];
    assert s[j..] == a[|r|..];
  }

  /** The trimmed string is the infix `s[i..j]` outside of which `s` is all
      whitespace, and it neither starts nor ends with whitespace. */
  lemma TrimSpec(s: string)
    ensures exists i, j :: 0 <= i <= j <= |s| && Trim(s) == s[i..j]
                           && AllWhitespace(s[..i]) && AllWhitespace(s[j..])
    ensures Trim(s) != [] ==> !IsJsWhitespace(Trim(s)[0]) && !IsJsWhitespace(Trim(s)[|Trim(s)| - 1])
  {
    var a := TrimStart(s);
    var r := TrimEnd(a);
    StrippedInfix(s, a, r);
    if r != [] {
      assert r[0] == a[0];
    }
  }

  /** Trimming leaves nothing exactly when every character is whitespace. */
  lemma TrimEmptyIff(s: string)
    ensures Trim(s) == [] <==> AllWhitespace(s)
  {
    TrimSpec(s);
    var r := Trim(s);
    var i, j :| 0 <= i <= j <= |s| && r == s[i..j]
                && AllWhitespace(s[..i]) && AllWhitespace(s[j..]);
    if r == [] {
      forall k | 0 <= k < |s| ensures IsJsWhitespace(s[k]) {
        if k < i { assert s[..i][k] == s[k]; } else { assert s[j..][k - j] == s[k]; }
      }
    } else {
      assert s[i] == r[0];
    }
  }

  /** A word: a non-empty run containing no whitespace. */
  predicate IsWord(w: string) {
    w != [] && forall k :: 0 <= k < |w| ==> !IsJsWhitespace(w[k])
  }

  /** Length of the run of non-whitespace characters that starts `s`. */
  function WordLength(s: string): (n: nat)
    ensures n <= |s|
    ensures forall k :: 0 <= k < n ==> !IsJsWhitespace(s[k])
    ensures n < |s| ==> IsJsWhitespace(s[n])
    decreases |s|
  {
    if s == [] || IsJsWhitespace(s[0]) then 0 else 1 + WordLength(s[1..])
  }

  /** The characters of `s` that are not whitespace, in order. */
  function NonWhitespace(s: string): string
    decreases |s|
  {
    if s == [] then []
    else (if IsJsWhitespace(s[0]) then [] else [s[0]]) + NonWhitespace(s[1..])
  }

  function Concat(ws: seq<string>): string
    decreases |ws|
  {
    if ws == [] then [] else ws[0] + Concat(ws[1..])
  }

  /** `s.split(/\s+/).filter(x => !!x)`: the maximal whitespace-free runs of `s`.
      Every fragment is a word, and together they hold every non-whitespace
      character of `s` in order. */
  function Words(s: string): (ws: seq<string>)
    ensures forall i :: 0 <= i < |ws| ==> IsWord(ws[i])
    ensures Concat(ws) == NonWhitespace(s)
    decreases |s|
  {
    if s == [] then []
    else if IsJsWhitespace(s[0]) then Words(s[1..])
    else
      var n := WordLength(s);
      NonWhitespaceOfWord(s[..n], s[n..]);
      assert s == s[..n] + s[n..];
      [s[..n]] + Words(s[n..])
  }

  lemma {:induction false} NonWhitespaceOfWord(w: string, rest: string)
    requires forall k :: 0 <= k < |w| ==> !IsJsWhitespace(w[k])
    ensures NonWhitespace(w + rest) == w + NonWhitespace(rest)
    decreases |w|
  {
    if w != [] {
      assert (w + rest)[1..] == w[1..] + rest;
      NonWhitespaceOfWord(w[1..], rest);
      assert w == [w[0]] + w[1..];
    } else {
      assert w + rest == rest;
    }
  }

  /** `Array.prototype.join(sep)` on strings. */
  function Join(ws: seq<string>, sep: string): string
    decreases |ws|
  {
    if |ws| == 0 then []
    else if |ws| == 1 then ws[0]
    else ws[0] + sep + Join(ws[1..], sep)
  }

  /** Splitting a space-joined list of words on whitespace gives the list back. */
  lemma {:induction false} WordsOfJoin(ws: seq<string>)
    requires forall i :: 0 <= i < |ws| ==> IsWord(ws[i])
    ensures Words(Join(ws, " ")) == ws
    decreases |ws|
  {
    if |ws| == 1 {
      var w := ws[0];
      WordLengthOfWord(w, []);
      assert w + [] == w;
      assert w[|w|..] == [];
    } else if |ws| > 1 {
      var w, rest := ws[0], Join(ws[1..], " ");
      var s := w + " " + rest;
      WordLengthOfWord(w, " " + rest);
      assert w + (" " + rest) == s;
      assert s[..|w|] == w;
      assert s[|w|..] == " " + rest;
      assert (" " + rest)[1..] == rest;
      WordsOfJoin(ws[1..]);
      assert [w] + ws[1..] == ws;
    }
  }

  /** `WordsOfJoin` for any list: the round trip holds whenever the list
      holds only words. */
  lemma WordsOfJoinWhenWords(ws: seq<string>)
    ensures (forall i :: 0 <= i < |ws| ==> IsWord(ws[i])) ==> Words(Join(ws, " ")) == ws
  {
    if forall i :: 0 <= i < |ws| ==> IsWord(ws[i]) {
      WordsOfJoin(ws);
    }
  }

  /** A word is a single fragment. */
  lemma WordsOfWord(w: string)
    requires IsWord(w)
    ensures Words(w) == [w]
  {
    WordLengthOfWord(w, []);
    assert w + [] == w;
    assert w[|w|..] == [];
  }

  /** Any whitespace character separates the fragments before it from the
      fragments after it: no fragment spans whitespace. */
  lemma {:induction false} WordsAtWhitespace(s: string, k: nat)
    requires k < |s| && IsJsWhitespace(s[k])
    ensures Words(s) == Words(s[..k]) + Words(s[k + 1..])
    decreases |s|
  {
    if k == 0 {
      assert s[..k] == [];
      WordsDropLeadingSpace(s);
    } else if IsJsWhitespace(s[0]) {
      SpaceFirst(s, k);
    } else {
      WordFirst(s, k);
    }
  }

  lemma {:induction false} SpaceFirst(s: string, k: nat)
    requires 0 < k < |s| && IsJsWhitespace(s[k]) && IsJsWhitespace(s[0])
    ensures Words(s) == Words(s[..k]) + Words(s[k + 1..])
    decreases |s|, 0
  {
    var t := s[1..];
    assert t[k - 1] == s[k];
    WordsAtWhitespace(t, k - 1);
    WordsDropLeadingSpace(s);
    WordsDropLeadingSpace(s[..k]);
    assert s[..k][1..] == t[..k - 1];
    assert t[k - 1 + 1..] == s[k + 1..];
  }

  lemma {:induction false} WordFirst(s: string, k: nat)
    requires k < |s| && IsJsWhitespace(s[k]) && !IsJsWhitespace(s[0])
    ensures Words(s) == Words(s[..k]) + Words(s[k + 1..])
    decreases |s|, 0
  {
    var n := WordLength(s);
    assert n <= k;
    var t := s[n..];
    assert t[k - n] == s[k];
    assert t[..k - n] == s[n..k];
    assert t[k - n + 1..] == s[k + 1..];
    var w, front, back := s[..n], Words(s[n..k]), Words(s[k + 1..]);
    WordsAtWhitespace(t, k - n);
    assert Words(t) == front + back;
    WordsCons(s);
    WordsLeadingWord(s, k);
    Regroup(w, front, back, Words(s), Words(s[..k]));
  }

  lemma Regroup<T>(x: T, a: seq<T>, b: seq<T>, whole: seq<T>, prefix: seq<T>)
    requires whole == [x] + (a + b) && prefix == [x] + a
    ensures whole == prefix + b
  {
  }

  lemma WordsDropLeadingSpace(s: string)
    requires s != [] && IsJsWhitespace(s[0])
    ensures Words(s) == Words(s[1..])
  {
  }

  lemma WordsCons(s: string)
    requires s != [] && !IsJsWhitespace(s[0])
    ensures Words(s) == [s[..WordLength(s)]] + Words(s[WordLength(s)..])
  {
  }

  /** The first fragment of a prefix that reaches past the first word is
      that word. */
  lemma WordsLeadingWord(s: string, k: nat)
    requires s != [] && !IsJsWhitespace(s[0])
    requires WordLength(s) <= k < |s| && IsJsWhitespace(s[k])
    ensures Words(s[..k]) == [s[..WordLength(s)]] + Words(s[WordLength(s)..k])
  {
    var n, p := WordLength(s), s[..k];
    assert IsWord(s[..n]) by {
      assert n > 0;
      forall j | 0 <= j < n ensures !IsJsWhitespace(s[..n][j]) {
        assert s[..n][j] == s[j];
      }
    }
    assert n < k ==> s[n..k][0] == s[n];
    WordLengthOfWord(s[..n], s[n..k]);
    assert s[..n] + s[n..k] == p;
    assert p[0] == s[0];
    assert p[..n] == s[..n];
    assert p[n..] == s[n..k];
  }

  lemma WordLengthOfWord(w: string, rest: string)
    requires IsWord(w)
    requires rest == [] || IsJsWhitespace(rest[0])
    ensures WordLength(w + rest) == |w|
  {
    var s := w + rest;
    assert forall k :: 0 <= k < |w| ==> s[k] == w[k];
    assert |w| < |s| ==> s[|w|] == rest[0];
  }

  /** Index of the first `c` in `s`, or `|s|` when there is none. */
  function IndexOf(s: string, c: char): (i: nat)
    ensures i <= |s|
    decreases |s|
  {
    if s == [] || s[0] == c then 0 else 1 + IndexOf(s[1..], c)
  }

  /** Nothing before the index is `c`, and the index, if inside `s`, holds `c`. */
  lemma {:induction false} IndexOfSpec(s: string, c: char)
    ensures forall k :: 0 <= k < IndexOf(s, c) ==> s[k] != c
    ensures IndexOf(s, c) < |s| ==> s[IndexOf(s, c)] == c
    decreases |s|
  {
    if s != [] && s[0] != c {
      var t := s[1..];
      IndexOfSpec(t, c);
      assert IndexOf(s, c) == 1 + IndexOf(t, c);
      forall k | 0 <= k < IndexOf(s, c) ensures s[k] != c {
        if k > 0 {
          assert s[k] == t[k - 1];
        }
      }
      if IndexOf(s, c) < |s| {
        assert s[IndexOf(s, c)] == t[IndexOf(t, c)];
      }
    }
  }

  lemma {:induction false} IndexOfAfter(a: string, c: char, b: string)
    requires c !in a
    ensures IndexOf(a + [c] + b, c) == |a|
    decreases |a|
  {
    var s := a + [c] + b;
    if a == [] {
      assert s[0] == c;
    } else {
      IndexOfAfter(a[1..], c, b);
      assert s[0] == a[0] && a[0] in a;
      assert s[1..] == a[1..] + [c] + b;
    }
  }

  /** `String.prototype.split(c)` for a one-character separator. */
  function Split(s: string, c: char): seq<string>
    decreases |s|
  {
    var i := IndexOf(s, c);
    if i == |s| then [s] else [s[..i]] + Split(s[i + 1..], c)
  }

  /** A part free of the separator comes off the front of a split intact. */
  lemma SplitAfter(a: string, c: char, b: string)
    requires c !in a
    ensures Split(a + [c] + b, c) == [a] + Split(b, c)
  {
    var s := a + [c] + b;
    IndexOfAfter(a, c, b);
    assert s[..|a|] == a;
    assert s[|a| + 1..] == b;
  }

  lemma SplitWithout(a: string, c: char)
    requires c !in a
    ensures Split(a, c) == [a]
  {
    IndexOfSpec(a, c);
  }
}

=== FILE: metastore.dfy ===
/** The one-record store `meta.json` in the application's data directory
    (`src/components/App.tsx`, lines 24-51). Its content is modelled at the
    level of the JSON document it holds; every way a read can fail (no file,
    a platform error, text that is not JSON) is one `Unreadable` or `Absent`
    file, because the reader catches them all alike. */
module MetaStore {
  import opened Wrappers
  import opened Json

  const SigninUrlKey: string := "signinUrl"

  datatype MetaFile = Absent | Unreadable | Stored(doc: JsonValue)

  /** What `setSignedInUrl(url)` leaves behind: the serialisation of
      `{signinUrl: url}`. */
  function Written(url: string): (f: MetaFile)
    ensures f.Stored? && Property(f.doc, SigninUrlKey) == Some(JString(url))
    ensures forall k :: k != SigninUrlKey ==> Property(f.doc, k).None?
  {
    Stored(JObject([(SigninUrlKey, JString(url))]))
  }

  /** `getSignedInUrl()`: the `signinUrl` property of the stored document,
      `""` when the read fails, when the document is `null` (reading a
      property of `null` throws), when the property is missing, and when it
      holds `null` (the `?? ''`). Any other value comes back as it is, even
      when it is not a string. */
  function ReadSignedInUrl(f: MetaFile): (r: JsonValue)
    ensures r != JNull
    ensures f.Absent? || f.Unreadable? ==> r == JString("")
    ensures f.Stored? && Property(f.doc, SigninUrlKey).Some?
            && Property(f.doc, SigninUrlKey).value != JNull
            ==> r == Property(f.doc, SigninUrlKey).value
  {
    match f
    case Absent => JString("")
    case Unreadable => JString("")
    case Stored(doc) =>
      var v := Property(doc, SigninUrlKey);
      if v.None? || v.value == JNull then JString("") else v.value
  }

  /** Reading after a write gives back exactly the URL written. */
  lemma ReadAfterWrite(url: string)
    ensures ReadSignedInUrl(Written(url)) == JString(url)
  {
    assert Lookup([(SigninUrlKey, JString(url))], SigninUrlKey) == Some(JString(url));
  }

  /** The read comes back as the empty string exactly when there is no
      usable record: no readable file, no object holding the key, a `null`
      under the key, or the empty string itself. */
  lemma {:induction false} ReadsEmptyIff(f: MetaFile)
    ensures ReadSignedInUrl(f) == JString("")
        <==> (f.Absent? || f.Unreadable?
              || Property(f.doc, SigninUrlKey).None?
              || Property(f.doc, SigninUrlKey).value in {JNull, JString("")})
  {
    if f.Stored? {
      var v := Property(f.doc, SigninUrlKey);
      if v.Some? && v.value != JNull && v.value != JString("") {
        assert ReadSignedInUrl(f) == v.value;
      }
    }
  }
}

=== FILE: overlay.dfy ===
/** The scanner overlay (`src/components/App/QRScannerOverlay.tsx`): the
    back arrow hands its click to the parent's handler, and the
    development-only "simulate" area signs in with a query string fixed at
    build time, without validating or encoding it. */
module Overlay {
  import opened Wrappers
  import Redirect

  /** The two clickable parts of the overlay. */
  datatype Click = BackArrow | SimulateArea

  /** The parent handler a click reaches: the back arrow is wired to the
      `onBackClick` property, which the sign-in screen sets to its cancel
      handler; the text below the camera view runs the simulate hook. */
  datatype Handler = OnBackClick | SimulateScan

  function HandlerOf(c: Click): (h: Handler)
    ensures h == OnBackClick <==> c == BackArrow
  {
    match c
    case BackArrow => OnBackClick
    case SimulateArea => SimulateScan
  }

  /** The redirect the simulate hook stores and follows, if any: none for an
      empty query, otherwise the entry path with the query appended as it
      stands. */
  function SimulatedRedirect(query: string): (r: Option<string>)
    ensures r.None? <==> query == ""
    ensures r.Some? ==> |r.value| == |Redirect.EntryPath| + 1 + |query|
                        && r.value[..|Redirect.EntryPath|] == Redirect.EntryPath
                        && r.value[|Redirect.EntryPath|] == '?'
                        && r.value[|Redirect.EntryPath| + 1..] == query
  {
    if query == "" then None else Some(Redirect.EntryPath + "?" + query)
  }

  /** Distinct queries lead to distinct redirects: nothing in the query is
      dropped or rewritten. */
  lemma SimulatedRedirectInjective(q1: string, q2: string)
    requires SimulatedRedirect(q1) == SimulatedRedirect(q2)
    ensures q1 == q2
  {
    if q1 != "" {
      assert SimulatedRedirect(q1).value[|Redirect.EntryPath| + 1..] == q1;
    }
  }
}

=== FILE: redirect.dfy ===
/** The redirect target built from a validated credential
    (`src/components/App.tsx`, line 185): the application-bundle entry path
    followed by four percent-encoded query parameters. `ParseRedirect` is a
    reference reader of such a target, the way the web application on the
    other side reads its query; it exists to state what the builder
    preserves. */
module Redirect {
  import opened Wrappers
  import opened Json
  import JsText
  import UriComponent
  import Credentials

  /** The application-bundle entry point every redirect leads to. */
  const EntryPath: string := "/whm_app/index.html"

  /** One query parameter as the template literal spells it:
      `name=` followed by the percent-encoded value. */
  function Param(name: string, value: string): string {
    name + "=" + UriComponent.Encode(value)
  }

  /** `/whm_app/index.html?userId=…&username=…&securityKey=…&apiBaseUrl=…`,
      each value passed through `encodeURIComponent`; the user id is first
      formatted with `String(userId)`. The target reads back as exactly the
      four parameters, in order, with the credential's values: every field
      survives the percent-encoding, and no value can spill into another
      parameter. */
  function RedirectUrl(host: Host, c: Credentials.Credential): (r: string)
    ensures ParseRedirect(r) == Some([
              ("userId", host.numberToString(c.userId)),
              ("username", c.username),
              ("securityKey", c.securityKey),
              ("apiBaseUrl", c.apiBaseUrl)])
  {
    QueryRoundTrip("userId", "username", "securityKey", "apiBaseUrl",
                   host.numberToString(c.userId), c.username, c.securityKey, c.apiBaseUrl);
    EntryPath + "?" + Param("userId", host.numberToString(c.userId))
    + "&" + Param("username", c.username)
    + "&" + Param("securityKey", c.securityKey)
    + "&" + Param("apiBaseUrl", c.apiBaseUrl)
  }

  /** One `name=value` pair of a query, the value percent-decoded. */
  function ParseParam(p: string): Option<(string, string)> {
    var i := JsText.IndexOf(p, '=');
    if i == |p| then None
    else
      var value := UriComponent.Decode(p[i + 1..]);
      if value.None? then None else Some((p[..i], value.value))
  }

  function ParseParams(ps: seq<string>): Option<seq<(string, string)>>
    decreases |ps|
  {
    if ps == [] then Some([])
    else
      var head, tail := ParseParam(ps[0]), ParseParams(ps[1..]);
      if head.None? || tail.None? then None else Some([head.value] + tail.value)
  }

  /** Reads a redirect target back into its list of query parameters. */
  function ParseRedirect(url: string): Option<seq<(string, string)>> {
    var prefix := EntryPath + "?";
    if |url| < |prefix| || url[..|prefix|] != prefix then None
    else ParseParams(JsText.Split(url[|prefix|..], '&'))
  }

  lemma ParseParamOf(name: string, value: string)
    requires '=' !in name
    ensures ParseParam(Param(name, value)) == Some((name, value))
  {
    var e := UriComponent.Encode(value);
    var p := name + "=" + e;
    JsText.IndexOfAfter(name, '=', e);
    assert p[..|name|] == name;
    assert p[|name| + 1..] == e;
    UriComponent.DecodeEncode(value);
  }

  lemma SplitFour(p1: string, p2: string, p3: string, p4: string)
    requires '&' !in p1 && '&' !in p2 && '&' !in p3 && '&' !in p4
    ensures JsText.Split(p1 + "&" + p2 + "&" + p3 + "&" + p4, '&') == [p1, p2, p3, p4]
  {
    Regroup(p1, p2, p3, p4, '&');
    SplitFourParts(p1, p2, p3, p4, '&');
  }

  lemma SplitTwoParts(p3: string, p4: string, c: char)
    requires c !in p3 && c !in p4
    ensures JsText.Split(p3 + [c] + p4, c) == [p3, p4]
  {
    JsText.SplitWithout(p4, c);
    JsText.SplitAfter(p3, c, p4);
  }

  lemma SplitThreeParts(p2: string, p3: string, p4: string, c: char)
    requires c !in p2 && c !in p3 && c !in p4
    ensures JsText.Split(p2 + [c] + (p3 + [c] + p4), c) == [p2, p3, p4]
  {
    SplitTwoParts(p3, p4, c);
    JsText.SplitAfter(p2, c, p3 + [c] + p4);
  }

  lemma SplitFourParts(p1: string, p2: string, p3: string, p4: string, c: char)
    requires c !in p1 && c !in p2 && c !in p3 && c !in p4
    ensures JsText.Split(p1 + [c] + (p2 + [c] + (p3 + [c] + p4)), c) == [p1, p2, p3, p4]
  {
    var rest := p2 + [c] + (p3 + [c] + p4);
    assert JsText.Split(rest, c) == [p2, p3, p4] by {
      SplitThreeParts(p2, p3, p4, c);
    }
    JsText.SplitAfter(p1, c, rest);
    assert [p1] + [p2, p3, p4] == [p1, p2, p3, p4];
  }

  lemma Regroup(p1: string, p2: string, p3: string, p4: string, c: char)
    ensures p1 + [c] + p2 + [c] + p3 + [c] + p4 == p1 + [c] + (p2 + [c] + (p3 + [c] + p4))
  {
  }

  lemma ParseCons(p: string, ps: seq<string>, a: (string, string), rest: seq<(string, string)>)
    requires ParseParam(p) == Some(a) && ParseParams(ps) == Some(rest)
    ensures ParseParams([p] + ps) == Some([a] + rest)
  {
    assert ([p] + ps)[0] == p;
    assert ([p] + ps)[1..] == ps;
  }

  lemma ParseFour(p1: string, p2: string, p3: string, p4: string,
                  a1: (string, string), a2: (string, string), a3: (string, string), a4: (string, string))
    requires ParseParam(p1) == Some(a1) && ParseParam(p2) == Some(a2)
    requires ParseParam(p3) == Some(a3) && ParseParam(p4) == Some(a4)
    ensures ParseParams([p1, p2, p3, p4]) == Some([a1, a2, a3, a4])
  {
    assert ParseParams([]) == Some([]);
    ParseCons(p4, [], a4, []);
    assert [p4] + [] == [p4] && [a4] + [] == [a4];
    ParseCons(p3, [p4], a3, [a4]);
    assert [p3] + [p4] == [p3, p4] && [a3] + [a4] == [a3, a4];
    ParseCons(p2, [p3, p4], a2, [a3, a4]);
    assert [p2] + [p3, p4] == [p2, p3, p4] && [a2] + [a3, a4] == [a2, a3, a4];
    ParseCons(p1, [p2, p3, p4], a1, [a2, a3, a4]);
    assert [p1] + [p2, p3, p4] == [p1, p2, p3, p4] && [a1] + [a2, a3, a4] == [a1, a2, a3, a4];
  }

  lemma ParseUnderPrefix(query: string)
    ensures ParseRedirect(EntryPath + "?" + query) == ParseParams(JsText.Split(query, '&'))
  {
    var prefix := EntryPath + "?";
    assert (prefix + query)[..|prefix|] == prefix;
    assert (prefix + query)[|prefix|..] == query;
  }

  lemma ParamHasNoAmpersand(name: string, value: string)
    requires '&' !in name
    ensures '&' !in Param(name, value)
  {
    UriComponent.EncodedHasNoDelimiters(value);
  }

  lemma Regroup4(a: string, p1: string, p2: string, p3: string, p4: string, amp: string)
    ensures a + p1 + amp + p2 + amp + p3 + amp + p4 == a + (p1 + amp + p2 + amp + p3 + amp + p4)
  {
  }

  lemma QuerySplit(n1: string, n2: string, n3: string, n4: string,
                   v1: string, v2: string, v3: string, v4: string)
    requires '&' !in n1 && '&' !in n2 && '&' !in n3 && '&' !in n4
    ensures JsText.Split(Param(n1, v1) + "&" + Param(n2, v2) + "&" + Param(n3, v3) + "&" + Param(n4, v4), '&')
         == [Param(n1, v1), Param(n2, v2), Param(n3, v3), Param(n4, v4)]
  {
    ParamHasNoAmpersand(n1, v1);
    ParamHasNoAmpersand(n2, v2);
    ParamHasNoAmpersand(n3, v3);
    ParamHasNoAmpersand(n4, v4);
    SplitFour(Param(n1, v1), Param(n2, v2), Param(n3, v3), Param(n4, v4));
  }

  lemma QueryParams(n1: string, n2: string, n3: string, n4: string,
                    v1: string, v2: string, v3: string, v4: string)
    requires '=' !in n1 && '=' !in n2 && '=' !in n3 && '=' !in n4
    ensures ParseParams([Param(n1, v1), Param(n2, v2), Param(n3, v3), Param(n4, v4)])
         == Some([(n1, v1), (n2, v2), (n3, v3), (n4, v4)])
  {
    ParseParamOf(n1, v1);
    ParseParamOf(n2, v2);
    ParseParamOf(n3, v3);
    ParseParamOf(n4, v4);
    ParseFour(Param(n1, v1), Param(n2, v2), Param(n3, v3), Param(n4, v4), (n1, v1), (n2, v2), (n3, v3), (n4, v4));
  }

  /** Whatever the four values, a query of four parameters whose names carry
      neither `=` nor `&` reads back as those names and values. */
  lemma {:induction false} QueryRoundTrip(n1: string, n2: string, n3: string, n4: string,
                                          v1: string, v2: string, v3: string, v4: string)
    requires '=' !in n1 && '=' !in n2 && '=' !in n3 && '=' !in n4
    requires '&' !in n1 && '&' !in n2 && '&' !in n3 && '&' !in n4
    ensures ParseRedirect(EntryPath + "?" + Param(n1, v1) + "&" + Param(n2, v2)
                          + "&" + Param(n3, v3) + "&" + Param(n4, v4))
         == Some([(n1, v1), (n2, v2), (n3, v3), (n4, v4)])
  {
    var p1, p2, p3, p4 := Param(n1, v1), Param(n2, v2), Param(n3, v3), Param(n4, v4);
    var query := p1 + "&" + p2 + "&" + p3 + "&" + p4;
    Regroup4(EntryPath + "?", p1, p2, p3, p4, "&");
    ParseUnderPrefix(query);
    QuerySplit(n1, n2, n3, n4, v1, v2, v3, v4);
    QueryParams(n1, n2, n3, n4, v1, v2, v3, v4);
  }

  /** A validated security key is spelt only with unreserved characters, so
      it appears in the redirect target exactly as scanned. */
  lemma SecurityKeyEncodesToItself(k: string)
    requires Credentials.IsSecurityKey(k)
    ensures UriComponent.Encode(k) == k
  {
    UriComponent.EncodeIdentityIff(k);
  }
}

=== FILE: scansession.dfy ===
/** The sign-in screen of `src/components/App.tsx` as a pure state machine:
    the startup branch (lines 68-87), the single toast with its replaceable
    7000 ms timer (lines 89-106), the scan handler from the permission check
    to navigation (lines 108-195), the back-arrow reset (lines 197-205) and
    the overlay's simulate hook (`src/components/App/QRScannerOverlay.tsx`,
    lines 10-17).

    The permission and scan awaits split a handler in two: the part up to
    the `await` runs on the event that starts it, the rest on the event that
    resolves it. A store write's outcome rides on the event that issues it.
    Events come one at a time. An event whose handler cannot run in the
    current state (the button is not on screen, or the awaited call is not
    pending) changes nothing, and once the page has navigated away nothing
    changes any more. Calls into the camera plugin and the file system are recorded
    as effects, in the order the code issues them. */
module ScanSession {
  import opened Wrappers
  import opened Json
  import Credentials
  import Redirect
  import MetaStore
  import Overlay

  const ToastMillis: nat := 7000

  /** The three toast messages, keyed as in `showInvalidQrCodeToast`. */
  datatype ToastKind = Invalid | NoneFound | Noop

  function Message(k: ToastKind): string {
    match k
    case Invalid => "Invalid QR code detected"
    case NoneFound => "No QR code found"
    case Noop => "Camera permissions required"
  }

  predicate IsMessage(t: string) {
    t == Message(Invalid) || t == Message(NoneFound) || t == Message(Noop)
  }

  /** The asynchronous call the scan handler is waiting on, if any. */
  datatype Task = NoTask | AwaitingPermission | AwaitingScan

  datatype State = State(
    isScanning: bool,
    backgroundHidden: bool,
    toastVisible: bool,
    toastText: string,
    timerDeadline: Option<nat>,
    clock: nat,
    task: Task,
    store: MetaStore.MetaFile,
    navigatedTo: Option<string>)

  /** How the camera permission check settles: granted, refused, or the
      plugin call itself rejects. */
  datatype Permission = Granted | Denied | CheckFailed

  datatype Event =
    | Launch
    | PermResult(permission: Permission)
    | ScanResolved(hasContent: bool, content: string, writeOk: bool)
    | ScanRejected
    | BackClick
    | Simulate(query: string, writeOk: bool)
    | Elapse(millis: nat)

  datatype Effect =
    | CheckPermission
    | HideBackground
    | ShowBackground
    | StartScan
    | StopScan
    | WriteMeta(url: string)
    | Navigate(target: string)
    | ScheduleSplashHide

  datatype Outcome = Outcome(state: State, effects: seq<Effect>)

  /** `clearToastTimeout()`: the pending hide, if any, is cancelled. */
  function ClearTimer(s: State): (r: State)
    ensures r.timerDeadline.None?
    ensures r.(timerDeadline := s.timerDeadline) == s
  {
    s.(timerDeadline := None)
  }

  /** `showInvalidQrCodeToast(k)`: cancel the pending hide, set the text from
      the fixed map, show the toast and schedule one hide 7000 ms from now. */
  function ShowToast(s: State, k: ToastKind): (r: State)
    ensures r.toastVisible && IsMessage(r.toastText) && r.toastText == Message(k)
    ensures r.timerDeadline == Some(s.clock + ToastMillis)
    ensures r.(toastVisible := s.toastVisible, toastText := s.toastText, timerDeadline := s.timerDeadline) == s
  {
    ClearTimer(s).(toastText := Message(k), toastVisible := true, timerDeadline := Some(s.clock + ToastMillis))
  }

  /** `BarcodeScanner.showBackground(); setIsScanner(false)`: the reset that
      the catch block and the back arrow share. */
  function Reset(s: State): (r: State)
    ensures !r.isScanning && !r.backgroundHidden
    ensures r.(isScanning := s.isScanning, backgroundHidden := s.backgroundHidden) == s
  {
    s.(backgroundHidden := false, isScanning := false)
  }

  /** Assigning the stored value to `document.location` throws: its string
      conversion throws, or the `href` setter cannot parse the string. */
  predicate AssignmentThrows(host: Host, v: JsonValue) {
    ConversionThrows(v) || !host.parsesAsLocation(ToJsString(host, v).value)
  }

  /** Assigning the stored value to `document.location` loads another
      document; a fragment-only change keeps this page. */
  predicate LeavesPage(host: Host, v: JsonValue) {
    !AssignmentThrows(host, v) && !host.sameDocument(ToJsString(host, v).value)
  }

  /** The startup effect: `?signout=true` clears the store; otherwise a
      non-empty stored URL is assigned to `document.location` at once. The
      splash hide is scheduled only when the stored value is empty, or after
      a successful sign-out. A failing clear, a stored value whose string
      conversion throws and a string the `href` setter rejects all make the
      async function reject; a fragment-only target keeps the page, with
      the splash screen still up. */
  function Boot(host: Host, file: MetaStore.MetaFile, signout: Option<string>, writeOk: bool): (o: Outcome)
    ensures o.state.clock == 0 && !o.state.isScanning && !o.state.toastVisible && o.state.task == NoTask
    ensures signout == Some("true") ==> o.state.navigatedTo.None?
    ensures signout == Some("true") && writeOk ==> o.state.store == MetaStore.Written("")
    ensures signout == Some("true") && !writeOk ==> o.state.store == file && o.effects == [WriteMeta("")]
    ensures signout != Some("true") ==> o.state.store == file
    ensures o.state.navigatedTo.Some? <==>
              signout != Some("true") && MetaStore.ReadSignedInUrl(file) != JString("")
              && LeavesPage(host, MetaStore.ReadSignedInUrl(file))
    ensures o.state.navigatedTo.Some? ==>
              && o.state.navigatedTo == ToJsString(host, MetaStore.ReadSignedInUrl(file))
              && o.effects == [Navigate(o.state.navigatedTo.value)]
    ensures o.effects == [] <==>
              signout != Some("true") && MetaStore.ReadSignedInUrl(file) != JString("")
              && AssignmentThrows(host, MetaStore.ReadSignedInUrl(file))
    ensures ScheduleSplashHide in o.effects <==>
              if signout == Some("true") then writeOk else MetaStore.ReadSignedInUrl(file) == JString("")
  {
    var s := State(false, false, false, "", None, 0, NoTask, file, None);
    if signout == Some("true") then
      if writeOk then Outcome(s.(store := MetaStore.Written("")), [WriteMeta(""), ScheduleSplashHide])
      else Outcome(s, [WriteMeta("")])
    else
      var stored := MetaStore.ReadSignedInUrl(file);
      if stored == JString("") then Outcome(s, [ScheduleSplashHide])
      else
        match ToJsString(host, stored)
        case None => Outcome(s, [])
        case Some(target) =>
          if !host.parsesAsLocation(target) then Outcome(s, [])
          else if host.sameDocument(target) then Outcome(s, [Navigate(target)])
          else Outcome(s.(navigatedTo := Some(target)), [Navigate(target)])
  }

  /** The part of the scan handler after `startScan` resolves with a result. */
  function AfterScan(host: Host, s: State, hasContent: bool, content: string, writeOk: bool): (o: Outcome)
    requires s.task == AwaitingScan
    ensures o.state.task == NoTask && !o.state.backgroundHidden && o.state.clock == s.clock
    ensures |o.effects| > 0 && o.effects[0] == ShowBackground
    ensures !hasContent ==> o.state.toastVisible && o.state.toastText == Message(NoneFound)
                            && !o.state.isScanning && o.effects == [ShowBackground]
    ensures s.navigatedTo.None? ==>
              (o.state.navigatedTo.Some? <==> hasContent && Credentials.Validate(host, content).Accepted? && writeOk)
  {
    var s := s.(task := NoTask);
    if !hasContent then Outcome(Reset(ShowToast(s, NoneFound)), [ShowBackground])
    else Conclude(host, s, Credentials.Validate(host, content), writeOk)
  }

  /** The rest of the handler once the payload's verdict is known: a
      rejection shows the "Invalid" toast, a throw falls into the outer
      catch, and an accepted credential is stored and followed. A failing
      store write also falls into the outer catch. */
  function Conclude(host: Host, s: State, v: Credentials.Verdict, writeOk: bool): (o: Outcome)
    ensures !o.state.backgroundHidden && o.state.task == s.task && o.state.clock == s.clock
    ensures |o.effects| > 0 && o.effects[0] == ShowBackground
    ensures o.state.isScanning <==> s.isScanning && v.Accepted? && writeOk
    ensures s.navigatedTo.None? ==> (o.state.navigatedTo.Some? <==> v.Accepted? && writeOk)
    ensures v.Accepted? && writeOk ==>
              var url := Redirect.RedirectUrl(host, v.credential);
              && o.state.navigatedTo == Some(url) && o.state.store == MetaStore.Written(url)
              && o.effects == [ShowBackground, WriteMeta(url), Navigate(url)]
    ensures !(v.Accepted? && writeOk) ==> o.state.store == s.store && o.state.navigatedTo == s.navigatedTo
    ensures v.Rejected? ==> o.state.toastVisible && o.state.toastText == Message(Invalid)
                            && o.state.timerDeadline == Some(s.clock + ToastMillis) && o.effects == [ShowBackground]
    ensures !v.Rejected? ==> o.state.toastVisible == s.toastVisible && o.state.toastText == s.toastText
                             && o.state.timerDeadline == s.timerDeadline
  {
    match v
    case Rejected(_) => Outcome(Reset(ShowToast(s, Invalid)), [ShowBackground])
    case Threw => Outcome(Reset(s), [ShowBackground])
    case Accepted(c) =>
      var url := Redirect.RedirectUrl(host, c);
      if writeOk then
        Outcome(s.(backgroundHidden := false, store := MetaStore.Written(url), navigatedTo := Some(url)),
                [ShowBackground, WriteMeta(url), Navigate(url)])
      else
        Outcome(Reset(s), [ShowBackground, WriteMeta(url), ShowBackground])
  }

  /** The logical clock advances; the toast hides when its deadline passes. */
  function Advance(s: State, millis: nat): (r: State)
    ensures r.clock == s.clock + millis
    ensures r.timerDeadline.Some? ==> r.timerDeadline == s.timerDeadline && r.clock < r.timerDeadline.value
    ensures s.timerDeadline.Some? && s.timerDeadline.value <= r.clock ==> !r.toastVisible && r.timerDeadline.None?
    ensures s.timerDeadline.None? || r.clock < s.timerDeadline.value ==>
              r.toastVisible == s.toastVisible && r.timerDeadline == s.timerDeadline
    ensures r.(clock := s.clock, toastVisible := s.toastVisible, timerDeadline := s.timerDeadline) == s
  {
    var s := s.(clock := s.clock + millis);
    if s.timerDeadline.Some? && s.timerDeadline.value <= s.clock
    then s.(toastVisible := false, timerDeadline := None)
    else s
  }

  /** `handleScanQrCodeClick` up to the permission check: the toast is
      hidden and its timer cancelled first. The button is on screen only
      while no scan is showing. */
  function LaunchClicked(s: State): (o: Outcome)
    ensures s.isScanning || s.task != NoTask ==> o == Outcome(s, [])
    ensures !s.isScanning && s.task == NoTask ==>
              && !o.state.toastVisible && o.state.timerDeadline.None? && o.state.task == AwaitingPermission
              && o.state.(toastVisible := s.toastVisible, timerDeadline := s.timerDeadline, task := s.task) == s
              && o.effects == [CheckPermission]
  {
    if s.isScanning || s.task != NoTask then Outcome(s, [])
    else Outcome(ClearTimer(s).(toastVisible := false, task := AwaitingPermission), [CheckPermission])
  }

  /** The permission check settles: granted hides the background and starts
      the camera; refused shows the "Noop" toast; a rejected check escapes
      the handler, which simply ends. */
  function PermissionSettled(s: State, p: Permission): (o: Outcome)
    ensures s.task != AwaitingPermission ==> o == Outcome(s, [])
    ensures s.task == AwaitingPermission && p == Granted ==>
              && o.state.isScanning && o.state.backgroundHidden && o.state.task == AwaitingScan
              && o.effects == [HideBackground, StartScan]
    ensures s.task == AwaitingPermission && p != Granted ==>
              && o.state.task == NoTask && o.effects == []
              && o.state.isScanning == s.isScanning && o.state.backgroundHidden == s.backgroundHidden
    ensures s.task == AwaitingPermission && p == Denied ==>
              o.state.toastVisible && o.state.toastText == Message(Noop)
              && o.state.timerDeadline == Some(s.clock + ToastMillis)
    ensures p != Denied ==> o.state.toastVisible == s.toastVisible && o.state.timerDeadline == s.timerDeadline
    ensures o.state.clock == s.clock && o.state.store == s.store && o.state.navigatedTo == s.navigatedTo
  {
    if s.task != AwaitingPermission then Outcome(s, [])
    else if p == Granted then
      Outcome(s.(backgroundHidden := true, isScanning := true, task := AwaitingScan), [HideBackground, StartScan])
    else if p == Denied then Outcome(ShowToast(s.(task := NoTask), Noop), [])
    else Outcome(s.(task := NoTask), [])
  }

  /** `startScan` rejects (an error, or the cancel that `stopScan` causes):
      the outer catch resets. */
  function ScanFailed(s: State): (o: Outcome)
    ensures s.task != AwaitingScan ==> o == Outcome(s, [])
    ensures s.task == AwaitingScan ==>
              && !o.state.isScanning && !o.state.backgroundHidden && o.state.task == NoTask
              && o.state.(isScanning := s.isScanning, backgroundHidden := s.backgroundHidden, task := s.task) == s
              && o.effects == [ShowBackground]
  {
    if s.task != AwaitingScan then Outcome(s, [])
    else Outcome(Reset(s.(task := NoTask)), [ShowBackground])
  }

  /** `handlerBackClick`, reachable only through the overlay, which is on
      screen while `isScanning` holds. */
  function BackClicked(s: State): (o: Outcome)
    ensures !s.isScanning ==> o == Outcome(s, [])
    ensures s.isScanning ==>
              && !o.state.isScanning && !o.state.backgroundHidden
              && o.state.(isScanning := s.isScanning, backgroundHidden := s.backgroundHidden) == s
              && o.effects == [StopScan, ShowBackground]
  {
    if !s.isScanning then Outcome(s, [])
    else Outcome(Reset(s), [StopScan, ShowBackground])
  }

  /** `handleSimulateQrCodeClick`, reachable only through the overlay. A
      failing write escapes the handler before the navigation. */
  function SimulateClicked(s: State, query: string, writeOk: bool): (o: Outcome)
    ensures s.navigatedTo.None? ==> (o.state.navigatedTo.Some? <==> s.isScanning && query != "" && writeOk)
    ensures s.isScanning && query != "" && writeOk ==>
              var url := Redirect.EntryPath + "?" + query;
              && o.state.navigatedTo == Some(url)
              && MetaStore.ReadSignedInUrl(o.state.store) == JString(url)
              && o.effects == [WriteMeta(url), Navigate(url)]
    ensures !(s.isScanning && query != "" && writeOk) ==>
              o.state == s && forall i :: 0 <= i < |o.effects| ==> !o.effects[i].Navigate?
  {
    var target := Overlay.SimulatedRedirect(query);
    if !s.isScanning || target.None? then Outcome(s, [])
    else
      var url := target.value;
      if writeOk then Outcome(s.(store := MetaStore.Written(url), navigatedTo := Some(url)), [WriteMeta(url), Navigate(url)])
      else Outcome(s, [WriteMeta(url)])
  }

  /** One event. Once the page has left, nothing happens any more; no
      event moves the clock back. */
  function Step(host: Host, s: State, e: Event): (o: Outcome)
    ensures s.navigatedTo.Some? ==> o == Outcome(s, [])
    ensures o.state.clock >= s.clock
    ensures !e.Elapse? ==> o.state.clock == s.clock
  {
    if s.navigatedTo.Some? then Outcome(s, [])
    else
      match e
      case Launch => LaunchClicked(s)
      case PermResult(p) => PermissionSettled(s, p)
      case ScanResolved(hasContent, content, writeOk) =>
        if s.task != AwaitingScan then Outcome(s, [])
        else AfterScan(host, s, hasContent, content, writeOk)
      case ScanRejected => ScanFailed(s)
      case BackClick => BackClicked(s)
      case Simulate(query, writeOk) => SimulateClicked(s, query, writeOk)
      case Elapse(millis) => Outcome(Advance(s, millis), [])
  }

  /** The time the `Elapse` events of a run add up to. */
  function TotalMillis(es: seq<Event>): nat
    decreases |es|
  {
    if es == [] then 0 else (if es[0].Elapse? then es[0].millis else 0) + TotalMillis(es[1..])
  }

  /** The state a run of events ends in. The clock never goes back and
      advances by at most the time the run lets elapse. */
  function Run(host: Host, s: State, es: seq<Event>): (r: State)
    ensures s.clock <= r.clock <= s.clock + TotalMillis(es)
    decreases |es|
  {
    if es == [] then s else Run(host, Step(host, s, es[0]).state, es[1..])
  }

  /** The event a click on the overlay delivers to the sign-in screen. */
  function OverlayEvent(c: Overlay.Click, query: string, writeOk: bool): (e: Event)
    ensures c == Overlay.BackArrow ==> e == BackClick
    ensures c == Overlay.SimulateArea ==> e == Simulate(query, writeOk)
  {
    match Overlay.HandlerOf(c)
    case OnBackClick => BackClick
    case SimulateScan => Simulate(query, writeOk)
  }

  // ---------------------------------------------------------------------
  // The invariant every reachable state keeps.

  /** The camera background is hidden only during a scan; a pending hide
      belongs to a visible toast and lies in the future; the toast only ever
      shows one of the three messages; a permission check is only awaited
      from the idle screen; the overlay is up only while a scan is pending
      (or after the page has left); and a navigation target is what the
      store reads back. */
  predicate Inv(host: Host, s: State) {
    && (s.backgroundHidden ==> s.isScanning)
    && (s.timerDeadline.Some? ==> s.toastVisible && s.clock < s.timerDeadline.value)
    && (s.toastText == "" || IsMessage(s.toastText))
    && (s.toastVisible ==> IsMessage(s.toastText))
    && (s.task == AwaitingPermission ==> !s.isScanning)
    && (s.isScanning && s.navigatedTo.None? ==> s.task == AwaitingScan)
    && (s.navigatedTo.Some? ==> s.navigatedTo == ToJsString(host, MetaStore.ReadSignedInUrl(s.store)))
  }

  lemma BootInv(host: Host, file: MetaStore.MetaFile, signout: Option<string>, writeOk: bool)
    ensures Inv(host, Boot(host, file, signout, writeOk).state)
  {
  }

  lemma StoredNavigation(host: Host, s: State, url: string)
    ensures Inv(host, s) ==> Inv(host, s.(store := MetaStore.Written(url), navigatedTo := Some(url)))
  {
    MetaStore.ReadAfterWrite(url);
  }

  lemma ConcludeInv(host: Host, s: State, v: Credentials.Verdict, writeOk: bool)
    requires Inv(host, s) && s.task == AwaitingScan && s.navigatedTo.None?
    ensures Inv(host, Conclude(host, s.(task := NoTask), v, writeOk).state)
  {
    if v.Accepted? && writeOk {
      StoredNavigation(host, s.(task := NoTask, backgroundHidden := false), Redirect.RedirectUrl(host, v.credential));
    }
  }

  /** A resolved scan with content is the verdict's conclusion. */
  lemma ResolvedIsConclude(host: Host, s: State, content: string, writeOk: bool)
    requires s.navigatedTo.None? && s.task == AwaitingScan
    ensures Step(host, s, ScanResolved(true, content, writeOk))
         == Conclude(host, s.(task := NoTask), Credentials.Validate(host, content), writeOk)
  {
    StepResolved(host, s, ScanResolved(true, content, writeOk));
    AfterScanIsConclude(host, s, content, writeOk);
  }

  /** A resolved scan runs the rest of the scan handler. */
  lemma StepResolved(host: Host, s: State, e: Event)
    requires s.navigatedTo.None? && s.task == AwaitingScan && e.ScanResolved?
    ensures Step(host, s, e) == AfterScan(host, s, e.hasContent, e.content, e.writeOk)
  {
  }

  lemma AfterScanIsConclude(host: Host, s: State, content: string, writeOk: bool)
    requires s.task == AwaitingScan
    ensures AfterScan(host, s, true, content, writeOk)
         == Conclude(host, s.(task := NoTask), Credentials.Validate(host, content), writeOk)
  {
  }

  /** The handlers that do not look at the payload keep the invariant. */
  lemma LaunchInv(host: Host, s: State)
    requires Inv(host, s) && s.navigatedTo.None?
    ensures Inv(host, LaunchClicked(s).state)
  {
  }

  lemma PermissionInv(host: Host, s: State, p: Permission)
    requires Inv(host, s) && s.navigatedTo.None?
    ensures Inv(host, PermissionSettled(s, p).state)
  {
  }

  lemma ScanFailedInv(host: Host, s: State)
    requires Inv(host, s) && s.navigatedTo.None?
    ensures Inv(host, ScanFailed(s).state)
  {
  }

  lemma BackInv(host: Host, s: State)
    requires Inv(host, s) && s.navigatedTo.None?
    ensures Inv(host, BackClicked(s).state)
  {
  }

  lemma SimulateInv(host: Host, s: State, query: string, writeOk: bool)
    requires Inv(host, s) && s.navigatedTo.None?
    ensures Inv(host, SimulateClicked(s, query, writeOk).state)
  {
    var target := Overlay.SimulatedRedirect(query);
    if s.isScanning && target.Some? && writeOk {
      StoredNavigation(host, s, target.value);
    }
  }

  lemma AdvanceInv(host: Host, s: State, millis: nat)
    requires Inv(host, s)
    ensures Inv(host, Advance(s, millis))
  {
  }

  lemma ScanSettledInv(host: Host, s: State, hasContent: bool, content: string, writeOk: bool)
    requires Inv(host, s) && s.navigatedTo.None? && s.task == AwaitingScan
    ensures Inv(host, Step(host, s, ScanResolved(hasContent, content, writeOk)).state)
  {
    if hasContent {
      ResolvedIsConclude(host, s, content, writeOk);
      ConcludeInv(host, s, Credentials.Validate(host, content), writeOk);
    }
  }

  lemma {:induction false} StepInv(host: Host, s: State, e: Event)
    requires Inv(host, s)
    ensures Inv(host, Step(host, s, e).state)
  {
    if s.navigatedTo.None? {
      match e
      case ScanResolved(hasContent, content, writeOk) =>
        if s.task == AwaitingScan {
          ScanSettledInv(host, s, hasContent, content, writeOk);
        }
      case Launch => LaunchInv(host, s);
      case PermResult(p) => PermissionInv(host, s, p);
      case ScanRejected => ScanFailedInv(host, s);
      case BackClick => BackInv(host, s);
      case Simulate(query, writeOk) => SimulateInv(host, s, query, writeOk);
      case Elapse(millis) => AdvanceInv(host, s, millis);
    }
  }

  /** Every state reached from a boot by any run of events keeps the
      invariant. */
  lemma {:induction false} RunInv(host: Host, s: State, es: seq<Event>)
    requires Inv(host, s)
    ensures Inv(host, Run(host, s, es))
    decreases |es|
  {
    if es != [] {
      StepInv(host, s, es[0]);
      RunInv(host, Step(host, s, es[0]).state, es[1..]);
    }
  }

  lemma ReachableInv(host: Host, file: MetaStore.MetaFile, signout: Option<string>, writeOk: bool, es: seq<Event>)
    ensures Inv(host, Run(host, Boot(host, file, signout, writeOk).state, es))
  {
    BootInv(host, file, signout, writeOk);
    RunInv(host, Boot(host, file, signout, writeOk).state, es);
  }

  /** Once the page has navigated away, no further event changes anything. */
  lemma {:induction false} NavigationIsFinal(host: Host, s: State, es: seq<Event>)
    requires s.navigatedTo.Some?
    ensures Run(host, s, es) == s
    decreases |es|
  {
    if es != [] {
      NavigationIsFinal(host, Step(host, s, es[0]).state, es[1..]);
    }
  }

  // ---------------------------------------------------------------------
  // Effects: the store is always written before the page navigates.

  predicate WrittenBefore(effects: seq<Effect>) {
    forall i :: 0 <= i < |effects| && effects[i].Navigate? ==>
      exists j :: 0 <= j < i && effects[j] == WriteMeta(effects[i].target)
  }

  /** Within one event, a navigation is always preceded by a write of the
      same URL to the store, and it leaves the store reading back that URL. */
  lemma ConcludeWrites(host: Host, s: State, v: Credentials.Verdict, writeOk: bool)
    requires s.navigatedTo.None?
    ensures var o := Conclude(host, s, v, writeOk);
            && WrittenBefore(o.effects)
            && (o.state.navigatedTo.Some? ==>
                  o.effects[|o.effects| - 1] == Navigate(o.state.navigatedTo.value)
                  && o.state.store == MetaStore.Written(o.state.navigatedTo.value))
  {
    var o := Conclude(host, s, v, writeOk);
    if v.Accepted? && writeOk {
      var url := Redirect.RedirectUrl(host, v.credential);
      assert o.effects == [ShowBackground, WriteMeta(url), Navigate(url)];
      assert o.effects[1] == WriteMeta(url);
    }
  }

  lemma StepWritesBeforeNavigating(host: Host, s: State, e: Event)
    requires s.navigatedTo.None?
    ensures WrittenBefore(Step(host, s, e).effects)
    ensures Step(host, s, e).state.navigatedTo.Some? ==>
              var t := Step(host, s, e).state.navigatedTo.value;
              Navigate(t) in Step(host, s, e).effects
              && MetaStore.ReadSignedInUrl(Step(host, s, e).state.store) == JString(t)
  {
    var o := Step(host, s, e);
    if e.ScanResolved? && e.hasContent && s.task == AwaitingScan {
      ResolvedIsConclude(host, s, e.content, e.writeOk);
      ConcludeWrites(host, s.(task := NoTask), Credentials.Validate(host, e.content), e.writeOk);
    } else if e.Simulate? && s.isScanning && Overlay.SimulatedRedirect(e.query).Some? && e.writeOk {
      var url := Overlay.SimulatedRedirect(e.query).value;
      assert o.effects == [WriteMeta(url), Navigate(url)];
      assert o.effects[0] == WriteMeta(url);
    } else {
      assert o.state.navigatedTo.None?;
      assert forall i :: 0 <= i < |o.effects| ==> !o.effects[i].Navigate?;
    }
    if o.state.navigatedTo.Some? {
      MetaStore.ReadAfterWrite(o.state.navigatedTo.value);
    }
  }

  // ---------------------------------------------------------------------
  // The outcomes of a resolved scan.

  lemma ConcludeSilent(host: Host, s: State, v: Credentials.Verdict, writeOk: bool)
    requires v.Threw? || (v.Accepted? && !writeOk)
    ensures var o := Conclude(host, s, v, writeOk);
            && o.state == Reset(s)
            && |o.effects| > 0 && o.effects[|o.effects| - 1] == ShowBackground
            && (forall i :: 0 <= i < |o.effects| ==> !o.effects[i].Navigate?)
  {
    var o := Conclude(host, s, v, writeOk);
    if v.Accepted? {
      var url := Redirect.RedirectUrl(host, v.credential);
      assert o.effects == [ShowBackground, WriteMeta(url), ShowBackground];
    }
  }

  /** A payload that fails to parse or fails any field check shows the
      "Invalid" toast for 7000 ms, restores the background, leaves scan
      mode and does not touch the store. */
  lemma InvalidPayload(host: Host, s: State, content: string, writeOk: bool)
    requires s.navigatedTo.None? && s.task == AwaitingScan
    requires Credentials.Validate(host, content).Rejected?
    ensures var o := Step(host, s, ScanResolved(true, content, writeOk));
            && o.state.toastVisible && o.state.toastText == "Invalid QR code detected"
            && o.state.timerDeadline == Some(s.clock + 7000)
            && !o.state.isScanning && !o.state.backgroundHidden
            && o.state.store == s.store && o.state.navigatedTo.None?
            && o.effects == [ShowBackground]
  {
    ResolvedIsConclude(host, s, content, writeOk);
  }

  /** A scanned JSON `null` and a store write that fails both end in the
      outer catch: the screen returns to idle and the toast is left as it
      was. */
  lemma SilentReset(host: Host, s: State, content: string, writeOk: bool)
    requires s.navigatedTo.None? && s.task == AwaitingScan
    requires host.parseJson(content) == Some(JNull) || (Credentials.Validate(host, content).Accepted? && !writeOk)
    ensures var o := Step(host, s, ScanResolved(true, content, writeOk));
            && o.state == Reset(s.(task := NoTask))
            && |o.effects| > 0 && o.effects[|o.effects| - 1] == ShowBackground
            && (forall i :: 0 <= i < |o.effects| ==> !o.effects[i].Navigate?)
  {
    ResolvedIsConclude(host, s, content, writeOk);
    ConcludeSilent(host, s.(task := NoTask), Credentials.Validate(host, content), writeOk);
  }

  /** A scan with no content shows "No QR code found" and returns to idle. */
  lemma NoContent(host: Host, s: State, content: string, writeOk: bool)
    requires s.navigatedTo.None? && s.task == AwaitingScan
    ensures var o := Step(host, s, ScanResolved(false, content, writeOk));
            && o.state == Reset(ShowToast(s.(task := NoTask), NoneFound))
            && o.state.toastText == "No QR code found"
            && o.effects == [ShowBackground]
  {
  }

  /** A valid payload whose store write succeeds: the background is restored,
      the redirect URL is stored and then navigated to, and scan mode stays
      on. */
  lemma SuccessPath(host: Host, s: State, content: string, c: Credentials.Credential)
    requires s.navigatedTo.None? && s.task == AwaitingScan && s.isScanning
    requires Credentials.Validate(host, content) == Credentials.Accepted(c)
    ensures var o := Step(host, s, ScanResolved(true, content, true));
            var url := Redirect.RedirectUrl(host, c);
            && o.effects == [ShowBackground, WriteMeta(url), Navigate(url)]
            && o.state.navigatedTo == Some(url)
            && MetaStore.ReadSignedInUrl(o.state.store) == JString(url)
            && o.state.isScanning && !o.state.backgroundHidden
  {
    ResolvedIsConclude(host, s, content, true);
    MetaStore.ReadAfterWrite(Redirect.RedirectUrl(host, c));
  }

  // ---------------------------------------------------------------------
  // Launching a scan and the permission check.

  /** Launching from the idle screen hides the toast and cancels its timer
      before anything else, then asks for the camera permission. */
  lemma LaunchClearsToast(host: Host, s: State)
    requires s.navigatedTo.None? && !s.isScanning && s.task == NoTask
    ensures var o := Step(host, s, Launch);
            && !o.state.toastVisible && o.state.timerDeadline.None?
            && o.state.task == AwaitingPermission
            && o.effects == [CheckPermission]
  {
  }

  /** A refused permission shows "Camera permissions required"; the camera
      never starts and the background is never hidden. A permission check
      that rejects shows nothing at all. */
  lemma PermissionNotGranted(host: Host, s: State, p: Permission)
    requires Inv(host, s)
    requires s.navigatedTo.None? && !s.isScanning && s.task == NoTask && p != Granted
    ensures var o1 := Step(host, s, Launch);
            var o2 := Step(host, o1.state, PermResult(p));
            && !o2.state.isScanning && !o2.state.backgroundHidden
            && StartScan !in o1.effects + o2.effects && HideBackground !in o1.effects + o2.effects
            && o2.state.task == NoTask
            && (p == Denied ==> o2.state.toastVisible && o2.state.toastText == "Camera permissions required")
            && (p == CheckFailed ==> !o2.state.toastVisible && o2.state.timerDeadline.None?)
  {
  }

  // ---------------------------------------------------------------------
  // Cancelling.

  /** The shared reset is idempotent. */
  lemma ResetIdempotent(s: State)
    ensures Reset(Reset(s)) == Reset(s)
  {
  }

  /** The back arrow resets at once and stops the camera; the rejection that
      `stopScan` then causes repeats the same reset, which changes nothing
      more than ending the pending scan. */
  lemma BackThenRejected(host: Host, s: State)
    requires s.navigatedTo.None? && s.isScanning && s.task == AwaitingScan
    ensures var o1 := Step(host, s, BackClick);
            var o2 := Step(host, o1.state, ScanRejected);
            && o1.effects == [StopScan, ShowBackground]
            && !o1.state.isScanning && !o1.state.backgroundHidden
            && o2.state == o1.state.(task := NoTask)
  {
  }

  /** A scan that rejects (a camera error, or the cancel that `stopScan`
      causes) takes the shared reset and leaves the toast as it was. */
  lemma ScanRejectedResets(host: Host, s: State)
    requires s.navigatedTo.None? && s.task == AwaitingScan
    ensures var o := Step(host, s, ScanRejected);
            && o.state == Reset(s.(task := NoTask))
            && !o.state.isScanning && !o.state.backgroundHidden
            && o.state.toastVisible == s.toastVisible && o.state.toastText == s.toastText
            && o.state.timerDeadline == s.timerDeadline && o.state.store == s.store
            && o.effects == [ShowBackground]
  {
  }

  /** The overlay's back arrow is the back-click handler. */
  lemma BackArrowIsBackClick(host: Host, s: State, query: string, writeOk: bool)
    ensures Step(host, s, OverlayEvent(Overlay.BackArrow, query, writeOk)) == Step(host, s, BackClick)
  {
  }

  // ---------------------------------------------------------------------
  // The toast timer.

  /** A second toast replaces the first, deadline included. */
  lemma ToastReplaces(s: State, k1: ToastKind, k2: ToastKind)
    ensures ShowToast(ShowToast(s, k1), k2) == ShowToast(s, k2)
  {
  }

  /** A toast stays up for less than 7000 ms of elapsed time and is gone at
      7000 ms, unless another toast has replaced it. */
  lemma ToastLifetime(s: State, k: ToastKind, millis: nat)
    ensures var r := Advance(ShowToast(s, k), millis);
            (millis < ToastMillis ==> r.toastVisible && r.toastText == Message(k))
            && (millis >= ToastMillis ==> !r.toastVisible && r.timerDeadline.None?)
  {
  }

  // ---------------------------------------------------------------------
  // The simulate hook.

  /** With an empty build-time query, a simulate click does nothing. With a
      non-empty one, while the overlay is up, it stores and then follows the
      entry path with the query appended verbatim. */
  lemma SimulateOutcome(host: Host, s: State, query: string, writeOk: bool)
    requires s.navigatedTo.None?
    ensures query == "" ==> Step(host, s, Simulate(query, writeOk)) == Outcome(s, [])
    ensures s.isScanning && query != "" && writeOk ==>
              var url := Redirect.EntryPath + "?" + query;
              var o := Step(host, s, Simulate(query, writeOk));
              && o.effects == [WriteMeta(url), Navigate(url)]
              && o.state.navigatedTo == Some(url)
              && MetaStore.ReadSignedInUrl(o.state.store) == JString(url)
  {
    if s.isScanning && query != "" && writeOk {
      MetaStore.ReadAfterWrite(Redirect.EntryPath + "?" + query);
    }
  }

  // ---------------------------------------------------------------------
  // Startup.

  /** Signing out clears the store, which then reads back as empty, and the
      screen stays. Without `signout=true`, a stored string that the `href`
      setter accepts and that names another document is followed as the
      store holds it, and the splash hide is never scheduled. A stored value
      whose assignment throws leaves the page where it is with the splash
      screen still up; so does a fragment-only target, after its
      same-document navigation. */
  lemma StartupBranches(host: Host, file: MetaStore.MetaFile, signout: Option<string>)
    ensures var o := Boot(host, file, Some("true"), true);
            && MetaStore.ReadSignedInUrl(o.state.store) == JString("")
            && o.state.navigatedTo.None? && o.effects == [WriteMeta(""), ScheduleSplashHide]
    ensures var stored := MetaStore.ReadSignedInUrl(file);
            signout != Some("true") && stored.JString? && stored != JString("")
            && host.parsesAsLocation(stored.s) && !host.sameDocument(stored.s) ==>
              var o := Boot(host, file, signout, true);
              && o.state.navigatedTo == Some(stored.s)
              && o.effects == [Navigate(stored.s)]
    ensures var stored := MetaStore.ReadSignedInUrl(file);
            signout != Some("true") && stored != JString("") && AssignmentThrows(host, stored) ==>
              var o := Boot(host, file, signout, true);
              && o.state.navigatedTo.None? && o.effects == []
    ensures var stored := MetaStore.ReadSignedInUrl(file);
            signout != Some("true") && stored != JString("") && !AssignmentThrows(host, stored)
            && host.sameDocument(ToJsString(host, stored).value) ==>
              var o := Boot(host, file, signout, true);
              && o.state.navigatedTo.None? && o.effects == [Navigate(ToJsString(host, stored).value)]
  {
    MetaStore.ReadAfterWrite("");
  }

  /** A stored object with its own `toString` member makes the assignment
      to `document.location` throw: no navigation, no splash hide. */
  lemma StoredObjectWithToString(host: Host, signout: Option<string>)
    requires signout != Some("true")
    ensures var file := MetaStore.Stored(JObject([("signinUrl", JObject([("toString", JNumber(0.0))]))]));
            var o := Boot(host, file, signout, true);
            && o.state.navigatedTo.None? && o.effects == [] && o.state.store == file
  {
    var inner := JObject([("toString", JNumber(0.0))]);
    var file := MetaStore.Stored(JObject([("signinUrl", inner)]));
    assert Lookup([("signinUrl", inner)], "signinUrl") == Some(inner);
    assert inner.members[0].0 == ToStringKey;
  }
}

=== FILE: styler.dfy ===
/** The class-name composer of `src/lib/styler.ts`. A composer call folds a
    base class string, a map of conditional classes, a list of toggles and
    any further modifiers into an insertion-ordered set of tokens (the keys
    of a plain object), renames each token through a style table, and joins
    them with single spaces.

    A token list is kept as a sequence in insertion order. A map of classes
    is the sequence of its entries in key-enumeration order, one entry per
    key. */
module Styler {
  import JsText

  /** `[on, off, state]`: the `on` classes when `state` holds, else `off`. */
  datatype Toggle = Toggle(on: string, off: string, state: bool)

  /** A `StylerModifier` with its defaults filled in. */
  datatype Modifier = Modifier(baseClasses: string, mapClasses: seq<(string, bool)>, toggleClasses: seq<Toggle>)

  predicate NoDup<T(==)>(xs: seq<T>) {
    forall i, j :: 0 <= i < j < |xs| ==> xs[i] != xs[j]
  }

  /** Position of the first `x` in `xs`, or `|xs|` when there is none. */
  function FirstIndex<T(==)>(xs: seq<T>, x: T): (i: nat)
    ensures i <= |xs|
    ensures i < |xs| <==> x in xs
    ensures i < |xs| ==> xs[i] == x && forall k :: 0 <= k < i ==> xs[k] != x
    decreases |xs|
  {
    if xs == [] then 0 else if xs[0] == x then 0 else 1 + FirstIndex(xs[1..], x)
  }

  lemma FirstIndexSnoc<T>(xs: seq<T>, y: T, x: T)
    requires x in xs
    ensures FirstIndex(xs + [y], x) == FirstIndex(xs, x)
  {
    var i := FirstIndex(xs, x);
    assert (xs + [y])[i] == x;
    assert forall k :: 0 <= k < i ==> (xs + [y])[k] == xs[k];
  }

  /** `this.tokens[x] = true`: a new key goes to the end, a present one
      keeps its place. */
  function Add(tokens: seq<string>, x: string): seq<string> {
    if x in tokens then tokens else tokens + [x]
  }

  /** Adds `xs` one after another. The result holds each token of `tokens`
      and `xs` exactly once, keeps `tokens` as its prefix, and lists its
      tokens in the order they first occur in `tokens + xs`. */
  function AddAll(tokens: seq<string>, xs: seq<string>): (r: seq<string>)
    ensures NoDup(tokens) ==> NoDup(r)
    ensures forall x :: x in r <==> x in tokens || x in xs
    ensures |tokens| <= |r| && r[..|tokens|] == tokens
    ensures NoDup(tokens) ==> forall i, j :: 0 <= i < j < |r| ==>
              FirstIndex(tokens + xs, r[i]) < FirstIndex(tokens + xs, r[j])
    decreases |xs|
  {
    if xs == [] then tokens
    else
      var init, w := xs[..|xs| - 1], xs[|xs| - 1];
      var prev := AddAll(tokens, init);
      assert xs == init + [w];
      assert tokens + xs == (tokens + init) + [w];
      OrderAfterAdd(tokens, init, w, prev);
      Add(prev, w)
  }

  lemma OrderAfterAdd(tokens: seq<string>, init: seq<string>, w: string, prev: seq<string>)
    requires forall x :: x in prev <==> x in tokens || x in init
    requires NoDup(tokens) ==> forall i, j :: 0 <= i < j < |prev| ==>
               FirstIndex(tokens + init, prev[i]) < FirstIndex(tokens + init, prev[j])
    ensures NoDup(tokens) ==> forall i, j :: 0 <= i < j < |Add(prev, w)| ==>
              FirstIndex(tokens + init + [w], Add(prev, w)[i]) < FirstIndex(tokens + init + [w], Add(prev, w)[j])
  {
    var u := tokens + init;
    var r := Add(prev, w);
    forall x | x in prev
      ensures FirstIndex(u + [w], x) == FirstIndex(u, x) && FirstIndex(u, x) < |u|
    {
      assert x in u;
      FirstIndexSnoc(u, w, x);
    }
    if w !in prev {
      assert w !in u;
      assert FirstIndex(u + [w], w) == |u| by {
        assert (u + [w])[|u|] == w;
        assert forall k :: 0 <= k < |u| ==> (u + [w])[k] == u[k];
      }
      assert forall i :: 0 <= i < |prev| ==> r[i] == prev[i];
    }
  }

  /** `addClasses`: split on whitespace, drop empty fragments, add each. */
  function AddClasses(tokens: seq<string>, classNames: string): (r: seq<string>)
    ensures |tokens| <= |r| && r[..|tokens|] == tokens
    ensures NoDup(tokens) ==> NoDup(r)
    ensures forall x :: x in r <==> x in tokens || x in JsText.Words(classNames)
  {
    AddAll(tokens, JsText.Words(classNames))
  }

  /** The map entries, in order, each adding its key's classes when its
      value is true. */
  function AddMapClasses(tokens: seq<string>, entries: seq<(string, bool)>): seq<string>
    decreases |entries|
  {
    if entries == [] then tokens
    else
      var prev := AddMapClasses(tokens, entries[..|entries| - 1]);
      var e := entries[|entries| - 1];
      if e.1 then AddClasses(prev, e.0) else prev
  }

  /** The class string a toggle selects. */
  function Chosen(t: Toggle): string {
    if t.state then t.on else t.off
  }

  /** The toggles, in order, each adding the classes its state selects. */
  function AddToggleClasses(tokens: seq<string>, toggles: seq<Toggle>): seq<string>
    decreases |toggles|
  {
    if toggles == [] then tokens
    else AddClasses(AddToggleClasses(tokens, toggles[..|toggles| - 1]), Chosen(toggles[|toggles| - 1]))
  }

  /** `addModifier`: base classes, then map entries, then toggles. */
  function AddModifier(tokens: seq<string>, m: Modifier): (r: seq<string>)
    ensures |tokens| <= |r| && r[..|tokens|] == tokens
    ensures NoDup(tokens) ==> NoDup(r)
    ensures forall x :: x in r <==> x in tokens || x in Contribution(m)
  {
    var base := AddClasses(tokens, m.baseClasses);
    AddMapClassesIsAddAll(base, m.mapClasses);
    AddToggleClassesIsAddAll(AddMapClasses(base, m.mapClasses), m.toggleClasses);
    AddToggleClasses(AddMapClasses(AddClasses(tokens, m.baseClasses), m.mapClasses), m.toggleClasses)
  }

  /** The modifiers, in argument order. */
  function AddModifiers(tokens: seq<string>, ms: seq<Modifier>): seq<string>
    decreases |ms|
  {
    if ms == [] then tokens else AddModifier(AddModifiers(tokens, ms[..|ms| - 1]), ms[|ms| - 1])
  }

  /** `styles[x] || x`: the renamed token when the table holds a non-empty
      name for it, else the token itself. */
  function Rename(styles: map<string, string>, x: string): (r: string)
    ensures x in styles && styles[x] != "" ==> r == styles[x]
    ensures (x !in styles || styles[x] == "") ==> r == x
  {
    if x in styles && styles[x] != "" then styles[x] else x
  }

  /** `getClassName`: the renamed tokens joined by single spaces. */
  function ClassName(styles: map<string, string>, tokens: seq<string>): (r: string)
    ensures (forall i :: 0 <= i < |tokens| ==> JsText.IsWord(Rename(styles, tokens[i]))) ==>
              JsText.Words(r) == seq(|tokens|, i requires 0 <= i < |tokens| => Rename(styles, tokens[i]))
  {
    var renamed := seq(|tokens|, i requires 0 <= i < |tokens| => Rename(styles, tokens[i]));
    JsText.WordsOfJoinWhenWords(renamed);
    JsText.Join(renamed, " ")
  }

  /** The tokens of one composer call: the positional arguments form the
      first modifier, the rest follow. */
  function Tokens(baseClasses: string, mapClasses: seq<(string, bool)>, toggleClasses: seq<Toggle>,
                  modifiers: seq<Modifier>): seq<string>
  {
    AddModifiers([], [Modifier(baseClasses, mapClasses, toggleClasses)] + modifiers)
  }

  /** `styler(styles)(baseClasses, mapClasses, toggleClasses, ...modifiers)`.
      The class string is empty exactly when no class was contributed. */
  function Compose(styles: map<string, string>, baseClasses: string, mapClasses: seq<(string, bool)>,
                   toggleClasses: seq<Toggle>, modifiers: seq<Modifier>): (r: string)
    ensures r == "" <==> Tokens(baseClasses, mapClasses, toggleClasses, modifiers) == []
  {
    var tokens := Tokens(baseClasses, mapClasses, toggleClasses, modifiers);
    TokensSpec(baseClasses, mapClasses, toggleClasses, modifiers);
    var r := ClassName(styles, tokens);
    assert tokens != [] ==> |r| >= |Rename(styles, tokens[0])| > 0;
    r
  }

  /** `s`: the composer with the default, empty style table. */
  function S(baseClasses: string, mapClasses: seq<(string, bool)>, toggleClasses: seq<Toggle>,
             modifiers: seq<Modifier>): (r: string)
    ensures JsText.Words(r) == Tokens(baseClasses, mapClasses, toggleClasses, modifiers)
  {
    var tokens := Tokens(baseClasses, mapClasses, toggleClasses, modifiers);
    TokensSpec(baseClasses, mapClasses, toggleClasses, modifiers);
    assert seq(|tokens|, i requires 0 <= i < |tokens| => Rename(map[], tokens[i])) == tokens;
    Compose(map[], baseClasses, mapClasses, toggleClasses, modifiers)
  }

  // ---------------------------------------------------------------------
  // What each part contributes, as a list of classes.

  /** The classes the map entries contribute, entry by entry. */
  function MapContribution(entries: seq<(string, bool)>): seq<string>
    decreases |entries|
  {
    if entries == [] then []
    else
      var e := entries[|entries| - 1];
      MapContribution(entries[..|entries| - 1]) + (if e.1 then JsText.Words(e.0) else [])
  }

  function ToggleContribution(toggles: seq<Toggle>): seq<string>
    decreases |toggles|
  {
    if toggles == [] then []
    else ToggleContribution(toggles[..|toggles| - 1]) + JsText.Words(Chosen(toggles[|toggles| - 1]))
  }

  /** Every class a modifier contributes, in processing order. */
  function Contribution(m: Modifier): seq<string> {
    JsText.Words(m.baseClasses) + MapContribution(m.mapClasses) + ToggleContribution(m.toggleClasses)
  }

  function Contributions(ms: seq<Modifier>): seq<string>
    decreases |ms|
  {
    if ms == [] then [] else Contributions(ms[..|ms| - 1]) + Contribution(ms[|ms| - 1])
  }

  /** A map entry contributes its key's classes exactly when its value is
      true; a false entry contributes nothing. */
  lemma {:induction false} InMapContribution(entries: seq<(string, bool)>, x: string)
    ensures x in MapContribution(entries)
        <==> exists i :: 0 <= i < |entries| && entries[i].1 && x in JsText.Words(entries[i].0)
    decreases |entries|
  {
    if entries != [] {
      var init, e := entries[..|entries| - 1], entries[|entries| - 1];
      InMapContribution(init, x);
      assert forall i :: 0 <= i < |init| ==> init[i] == entries[i];
      if e.1 && x in JsText.Words(e.0) {
        assert entries[|entries| - 1] == e;
      }
    }
  }

  /** A toggle contributes the classes of its `on` string when its state
      holds and those of its `off` string otherwise. */
  lemma {:induction false} InToggleContribution(toggles: seq<Toggle>, x: string)
    ensures x in ToggleContribution(toggles)
        <==> exists i :: 0 <= i < |toggles| &&
               x in JsText.Words(if toggles[i].state then toggles[i].on else toggles[i].off)
    decreases |toggles|
  {
    if toggles != [] {
      var n := |toggles| - 1;
      var init := toggles[..n];
      var here := JsText.Words(Chosen(toggles[n]));
      assert ToggleContribution(toggles) == ToggleContribution(init) + here;
      InToggleContribution(init, x);
      assert x in ToggleContribution(toggles) ==> exists i :: 0 <= i < |toggles| && x in JsText.Words(Chosen(toggles[i])) by {
        if x in ToggleContribution(init) {
          var i :| 0 <= i < |init| && x in JsText.Words(Chosen(init[i]));
          assert toggles[i] == init[i];
        }
      }
      assert (exists i :: 0 <= i < |toggles| && x in JsText.Words(Chosen(toggles[i]))) ==> x in ToggleContribution(toggles) by {
        if exists i :: 0 <= i < |toggles| && x in JsText.Words(Chosen(toggles[i])) {
          var i :| 0 <= i < |toggles| && x in JsText.Words(Chosen(toggles[i]));
          assert i == n || init[i] == toggles[i];
        }
      }
    }
  }

  /** A class is contributed by a list of modifiers exactly when one of
      them contributes it. */
  lemma {:induction false} InContributions(ms: seq<Modifier>, x: string)
    ensures x in Contributions(ms) <==> exists i :: 0 <= i < |ms| && x in Contribution(ms[i])
    decreases |ms|
  {
    if ms != [] {
      var n := |ms| - 1;
      var init := ms[..n];
      assert Contributions(ms) == Contributions(init) + Contribution(ms[n]);
      InContributions(init, x);
      assert x in Contributions(ms) ==> exists i :: 0 <= i < |ms| && x in Contribution(ms[i]) by {
        if x in Contributions(init) {
          var i :| 0 <= i < |init| && x in Contribution(init[i]);
          assert ms[i] == init[i];
        }
      }
      assert (exists i :: 0 <= i < |ms| && x in Contribution(ms[i])) ==> x in Contributions(ms) by {
        if exists i :: 0 <= i < |ms| && x in Contribution(ms[i]) {
          var i :| 0 <= i < |ms| && x in Contribution(ms[i]);
          assert i == n || init[i] == ms[i];
        }
      }
    }
  }

  /** Adding two lists one after the other is adding their concatenation. */
  lemma {:induction false} AddAllAppend(tokens: seq<string>, a: seq<string>, b: seq<string>)
    ensures AddAll(AddAll(tokens, a), b) == AddAll(tokens, a + b)
    decreases |b|
  {
    if b != [] {
      var init, w := b[..|b| - 1], b[|b| - 1];
      assert b == init + [w];
      calc {
        AddAll(AddAll(tokens, a), b);
        == { AddAllSnoc(AddAll(tokens, a), init, w); }
        Add(AddAll(AddAll(tokens, a), init), w);
        == { AddAllAppend(tokens, a, init); }
        Add(AddAll(tokens, a + init), w);
        == { AddAllSnoc(tokens, a + init, w); assert a + b == (a + init) + [w]; }
        AddAll(tokens, a + b);
      }
    } else {
      assert a + b == a;
    }
  }

  /** Adding one more token is one more `Add`. */
  lemma AddAllSnoc(tokens: seq<string>, xs: seq<string>, w: string)
    ensures AddAll(tokens, xs + [w]) == Add(AddAll(tokens, xs), w)
  {
    var ys := xs + [w];
    assert ys[..|ys| - 1] == xs;
  }

  /** Adding tokens that are all present already changes nothing. */
  lemma {:induction false} AddAllPresent(tokens: seq<string>, xs: seq<string>)
    requires forall x :: x in xs ==> x in tokens
    ensures AddAll(tokens, xs) == tokens
    decreases |xs|
  {
    if xs != [] {
      AddAllPresent(tokens, xs[..|xs| - 1]);
      assert xs[|xs| - 1] in xs;
    }
  }

  lemma {:induction false} AddMapClassesIsAddAll(tokens: seq<string>, entries: seq<(string, bool)>)
    ensures AddMapClasses(tokens, entries) == AddAll(tokens, MapContribution(entries))
    decreases |entries|
  {
    if entries != [] {
      var init, e := entries[..|entries| - 1], entries[|entries| - 1];
      AddMapClassesIsAddAll(tokens, init);
      AddAllAppend(tokens, MapContribution(init), if e.1 then JsText.Words(e.0) else []);
    }
  }

  lemma {:induction false} AddToggleClassesIsAddAll(tokens: seq<string>, toggles: seq<Toggle>)
    ensures AddToggleClasses(tokens, toggles) == AddAll(tokens, ToggleContribution(toggles))
    decreases |toggles|
  {
    if toggles != [] {
      var init, g := toggles[..|toggles| - 1], toggles[|toggles| - 1];
      AddToggleClassesIsAddAll(tokens, init);
      AddAllAppend(tokens, ToggleContribution(init), JsText.Words(Chosen(g)));
    }
  }

  /** A modifier adds exactly its contribution list, in order. */
  lemma AddModifierIsAddAll(tokens: seq<string>, m: Modifier)
    ensures AddModifier(tokens, m) == AddAll(tokens, Contribution(m))
  {
    var b, mc, tc := JsText.Words(m.baseClasses), MapContribution(m.mapClasses), ToggleContribution(m.toggleClasses);
    AddMapClassesIsAddAll(AddAll(tokens, b), m.mapClasses);
    AddAllAppend(tokens, b, mc);
    AddToggleClassesIsAddAll(AddAll(tokens, b + mc), m.toggleClasses);
    AddAllAppend(tokens, b + mc, tc);
  }

  lemma {:induction false} AddModifiersIsAddAll(tokens: seq<string>, ms: seq<Modifier>)
    ensures AddModifiers(tokens, ms) == AddAll(tokens, Contributions(ms))
    decreases |ms|
  {
    if ms != [] {
      var init, m := ms[..|ms| - 1], ms[|ms| - 1];
      AddModifiersIsAddAll(tokens, init);
      AddModifierIsAddAll(AddAll(tokens, Contributions(init)), m);
      AddAllAppend(tokens, Contributions(init), Contribution(m));
    }
  }

  /** Every contributed class is a word: never empty, never holding
      whitespace. */
  lemma ContributionsAreWords(ms: seq<Modifier>, x: string)
    requires x in Contributions(ms)
    ensures JsText.IsWord(x)
  {
    InContributions(ms, x);
    var i :| 0 <= i < |ms| && x in Contribution(ms[i]);
    var m := ms[i];
    InMapContribution(m.mapClasses, x);
    InToggleContribution(m.toggleClasses, x);
    if x in JsText.Words(m.baseClasses) {
    } else if x in MapContribution(m.mapClasses) {
      var k :| 0 <= k < |m.mapClasses| && m.mapClasses[k].1 && x in JsText.Words(m.mapClasses[k].0);
    } else {
      var k :| 0 <= k < |m.toggleClasses| && x in JsText.Words(Chosen(m.toggleClasses[k]));
    }
  }

  /** The tokens of a composer call: each contributed class exactly once,
      nothing else, never an empty token, listed in the order of first
      contribution (base classes, then true map entries, then toggles, then
      each further modifier). */
  lemma TokensSpec(baseClasses: string, mapClasses: seq<(string, bool)>, toggleClasses: seq<Toggle>,
                   modifiers: seq<Modifier>)
    ensures var r := Tokens(baseClasses, mapClasses, toggleClasses, modifiers);
            var cs := Contributions([Modifier(baseClasses, mapClasses, toggleClasses)] + modifiers);
            && NoDup(r)
            && (forall x :: x in r <==> x in cs)
            && (forall i :: 0 <= i < |r| ==> JsText.IsWord(r[i]))
            && (forall i, j :: 0 <= i < j < |r| ==> FirstIndex(cs, r[i]) < FirstIndex(cs, r[j]))
  {
    var ms := [Modifier(baseClasses, mapClasses, toggleClasses)] + modifiers;
    AddModifiersIsAddAll([], ms);
    var r := AddAll([], Contributions(ms));
    assert [] + Contributions(ms) == Contributions(ms);
    forall i | 0 <= i < |r|
      ensures JsText.IsWord(r[i])
    {
      ContributionsAreWords(ms, r[i]);
    }
  }

  /** A single toggle adds exactly the classes its state selects. */
  lemma ToggleChoice(tokens: seq<string>, on: string, off: string, state: bool)
    ensures AddModifier(tokens, Modifier("", [], [Toggle(on, off, state)]))
         == AddAll(tokens, JsText.Words(if state then on else off))
  {
    var m := Modifier("", [], [Toggle(on, off, state)]);
    assert JsText.Words("") == [];
    assert AddClasses(tokens, "") == tokens;
    assert AddMapClasses(tokens, []) == tokens;
    assert [Toggle(on, off, state)][..0] == [];
    assert AddToggleClasses(tokens, [Toggle(on, off, state)])
        == AddClasses(AddToggleClasses(tokens, []), Chosen(Toggle(on, off, state)));
  }

  /** Adding the same modifier twice gives the tokens of adding it once. */
  lemma AddModifierIdempotent(tokens: seq<string>, m: Modifier)
    ensures AddModifier(AddModifier(tokens, m), m) == AddModifier(tokens, m)
  {
    AddModifierIsAddAll(tokens, m);
    AddModifierIsAddAll(AddModifier(tokens, m), m);
    AddAllPresent(AddModifier(tokens, m), Contribution(m));
  }

  /** With the empty style table the class string is the tokens, unrenamed,
      joined by single spaces. */
  lemma SJoinsTokens(baseClasses: string, mapClasses: seq<(string, bool)>, toggleClasses: seq<Toggle>,
                     modifiers: seq<Modifier>)
    ensures S(baseClasses, mapClasses, toggleClasses, modifiers)
         == JsText.Join(Tokens(baseClasses, mapClasses, toggleClasses, modifiers), " ")
  {
    var r := Tokens(baseClasses, mapClasses, toggleClasses, modifiers);
    assert seq(|r|, i requires 0 <= i < |r| => Rename(map[], r[i])) == r;
  }

  /** With a style table whose non-empty names are single classes, the
      class string splits back into the renamed tokens, in token order. */
  lemma ComposeRenames(styles: map<string, string>, baseClasses: string, mapClasses: seq<(string, bool)>,
                       toggleClasses: seq<Toggle>, modifiers: seq<Modifier>)
    requires forall k :: k in styles ==> styles[k] == "" || JsText.IsWord(styles[k])
    ensures var r := Tokens(baseClasses, mapClasses, toggleClasses, modifiers);
            JsText.Words(Compose(styles, baseClasses, mapClasses, toggleClasses, modifiers))
              == seq(|r|, i requires 0 <= i < |r| => Rename(styles, r[i]))
  {
    var r := Tokens(baseClasses, mapClasses, toggleClasses, modifiers);
    TokensSpec(baseClasses, mapClasses, toggleClasses, modifiers);
    JsText.WordsOfJoin(seq(|r|, i requires 0 <= i < |r| => Rename(styles, r[i])));
  }
}

=== FILE: uricomponent.dfy ===
/** ECMAScript `encodeURIComponent` and its inverse `decodeURIComponent`:
    percent-encoding in the sense of section 2.1 of RFC 3986 over the UTF-8
    encoding of each character (section 3 of RFC 3629). Strings are
    sequences of Unicode scalar values, so the lone-surrogate case in which
    `encodeURIComponent` throws does not arise. */
module UriComponent {
  import opened Wrappers

  type Byte = b: int | 0 <= b < 256

  /** The characters `encodeURIComponent` leaves as they are:
      ASCII letters and digits and `- _ . ! ~ * ' ( )`. */
  predicate IsUnreserved(c: char) {
    || ('A' <= c <= 'Z') || ('a' <= c <= 'z') || ('0' <= c <= '9')
    || c == '-' || c == '_' || c == '.' || c == '!' || c == '~'
    || c == '*' || c == '\'' || c == '(' || c == ')'
  }

  predicate IsHexDigit(c: char) {
    ('0' <= c <= '9') || ('A' <= c <= 'F') || ('a' <= c <= 'f')
  }

  predicate IsUpperHexDigit(c: char) {
    ('0' <= c <= '9') || ('A' <= c <= 'F')
  }

  /** Upper-case hexadecimal digit for `d`, as `encodeURIComponent` writes it. */
  function HexDigit(d: int): (c: char)
    requires 0 <= d < 16
    ensures IsHexDigit(c) && IsUnreserved(c)
    ensures IsUpperHexDigit(c) && HexValue(c) == d
  {
    if d < 10 then ('0' as int + d) as char else ('A' as int + d - 10) as char
  }

  /** The value of a hexadecimal digit of either case. */
  function HexValue(c: char): (d: int)
    requires IsHexDigit(c)
    ensures 0 <= d < 16
  {
    if '0' <= c <= '9' then c as int - '0' as int
    else if 'A' <= c <= 'F' then c as int - 'A' as int + 10
    else c as int - 'a' as int + 10
  }

  /** UTF-8 encoding of one scalar value, one to four bytes. */
  function Utf8(c: char): (bs: seq<Byte>)
    ensures 1 <= |bs| <= 4
    ensures (|bs| == 1) == (c as int < 0x80)
  {
    var n := c as int;
    if n < 0x80 then [n]
    else if n < 0x800 then [0xC0 + n / 64, 0x80 + n % 64]
    else if n < 0x10000 then [0xE0 + n / 4096, 0x80 + (n / 64) % 64, 0x80 + n % 64]
    else [0xF0 + n / 0x40000, 0x80 + (n / 4096) % 64, 0x80 + (n / 64) % 64, 0x80 + n % 64]
  }

  /** `%XY` for one byte. */
  function Escape(b: Byte): (r: string)
    ensures |r| == 3
  {
    ['%', HexDigit(b / 16), HexDigit(b % 16)]
  }

  function Escapes(bs: seq<Byte>): string
    decreases |bs|
  {
    if bs == [] then [] else Escape(bs[0]) + Escapes(bs[1..])
  }

  /** Every character of an encoding is unreserved or a `%`. */
  predicate IsEncoded(s: string) {
    forall k :: 0 <= k < |s| ==> IsUnreserved(s[k]) || s[k] == '%'
  }

  function EncodeChar(c: char): (r: string)
    ensures IsEncoded(r)
    ensures IsUnreserved(c) ==> r == [c]
    ensures !IsUnreserved(c) ==> |r| >= 3 && r[0] == '%'
  {
    if IsUnreserved(c) then [c] else EscapesEncoded(Utf8(c)); Escapes(Utf8(c))
  }

  lemma {:induction false} EscapesEncoded(bs: seq<Byte>)
    ensures IsEncoded(Escapes(bs))
    ensures |Escapes(bs)| == 3 * |bs|
    ensures bs != [] ==> Escapes(bs)[0] == '%'
    decreases |bs|
  {
    if bs != [] {
      EscapesEncoded(bs[1..]);
    }
  }

  /** Every `%` is followed by two upper-case hexadecimal digits. */
  predicate HasUpperEscapes(s: string) {
    forall k :: 0 <= k < |s| && s[k] == '%' ==>
      k + 2 < |s| && IsUpperHexDigit(s[k + 1]) && IsUpperHexDigit(s[k + 2])
  }

  lemma UpperEscapesAppend(a: string, b: string)
    requires HasUpperEscapes(a) && HasUpperEscapes(b)
    ensures HasUpperEscapes(a + b)
  {
    forall k | 0 <= k < |a + b| && (a + b)[k] == '%'
      ensures k + 2 < |a + b| && IsUpperHexDigit((a + b)[k + 1]) && IsUpperHexDigit((a + b)[k + 2])
    {
      if k < |a| {
        assert a[k] == '%';
      } else {
        assert b[k - |a|] == '%';
      }
    }
  }

  lemma {:induction false} EscapesUpperCase(bs: seq<Byte>)
    ensures HasUpperEscapes(Escapes(bs))
    decreases |bs|
  {
    if bs != [] {
      EscapesUpperCase(bs[1..]);
      UpperEscapesAppend(Escape(bs[0]), Escapes(bs[1..]));
    }
  }

  /** `encodeURIComponent` writes every escape as `%` and two upper-case
      hexadecimal digits: `/` becomes `%2F`, never `%2f`. */
  lemma {:induction false} EncodeUpperCase(s: string)
    ensures HasUpperEscapes(Encode(s))
    decreases |s|
  {
    if s != [] {
      EncodeUpperCase(s[1..]);
      if !IsUnreserved(s[0]) {
        EscapesUpperCase(Utf8(s[0]));
      }
      UpperEscapesAppend(EncodeChar(s[0]), Encode(s[1..]));
    }
  }

  /** `encodeURIComponent(s)`. The result holds only unreserved characters
      and `%`, and is never shorter than `s`. */
  function Encode(s: string): (r: string)
    ensures IsEncoded(r)
    ensures |r| >= |s|
    decreases |s|
  {
    if s == [] then [] else EncodeChar(s[0]) + Encode(s[1..])
  }

  /** An encoded component is free of the characters that delimit a query:
      it can sit between `=` and `&` (or `#`) without changing how a URL splits. */
  lemma EncodedHasNoDelimiters(s: string)
    ensures '&' !in Encode(s) && '=' !in Encode(s) && '?' !in Encode(s)
    ensures '#' !in Encode(s) && '+' !in Encode(s) && ' ' !in Encode(s)
  {
    var r := Encode(s);
    EncodedLacks(r, '&');
    EncodedLacks(r, '=');
    EncodedLacks(r, '?');
    EncodedLacks(r, '#');
    EncodedLacks(r, '+');
    EncodedLacks(r, ' ');
  }

  /** An encoded string holds no character that is neither unreserved nor `%`. */
  lemma EncodedLacks(r: string, c: char)
    requires IsEncoded(r) && !IsUnreserved(c) && c != '%'
    ensures c !in r
  {
  }

  /** Encoding leaves a string unchanged exactly when all of its characters
      are unreserved. */
  lemma {:induction false} EncodeIdentityIff(s: string)
    ensures Encode(s) == s <==> forall k :: 0 <= k < |s| ==> IsUnreserved(s[k])
    decreases |s|
  {
    if s != [] {
      EncodeIdentityIff(s[1..]);
      if Encode(s) == s {
        assert |Encode(s[1..])| >= |s[1..]|;
        assert IsUnreserved(s[0]);
        assert Encode(s[1..]) == s[1..];
      }
      if forall k :: 0 <= k < |s| ==> IsUnreserved(s[k]) {
        assert forall k :: 0 <= k < |s[1..]| ==> IsUnreserved(s[1..][k]);
        assert s == [s[0]] + s[1..];
      }
    }
  }

  lemma {:induction false} EncodeAppend(a: string, b: string)
    ensures Encode(a + b) == Encode(a) + Encode(b)
    decreases |a|
  {
    if a == [] {
      assert a + b == b;
    } else {
      assert (a + b)[1..] == a[1..] + b;
      EncodeAppend(a[1..], b);
    }
  }

  // ---------------------------------------------------------------------
  // decodeURIComponent

  /** The byte written as `%XY` at position `i`, if there is one. */
  function EscapeAt(s: string, i: nat): Option<Byte> {
    if i + 3 <= |s| && s[i] == '%' && IsHexDigit(s[i + 1]) && IsHexDigit(s[i + 2])
    then Some(HexValue(s[i + 1]) * 16 + HexValue(s[i + 2]))
    else None
  }

  /** The six payload bits of a continuation byte `10xxxxxx` escaped at `i`. */
  function PayloadAt(s: string, i: nat): Option<int> {
    var e := EscapeAt(s, i);
    if e.Some? && 0x80 <= e.value < 0xC0 then Some(e.value - 0x80) else None
  }

  /** A decoded code point, accepted only if it is a scalar value that needed
      all the bytes it used (no overlong form, no surrogate, at most U+10FFFF). */
  function Scalar(cp: int, least: int, width: nat): Option<(char, nat)> {
    if 0 <= least <= cp <= 0x10FFFF && !(0xD800 <= cp < 0xE000)
    then Some((cp as char, width)) else None
  }

  /** Folds the payloads of `count` continuation escapes, the first at
      escape slot `i`, into the code-point bits gathered so far. */
  function Gather(s: string, acc: int, i: nat, count: nat): Option<int>
    decreases count
  {
    if count == 0 then Some(acc)
    else
      var p := PayloadAt(s, 3 * i);
      if p.None? then None else Gather(s, acc * 64 + p.value, i + 1, count - 1)
  }

  /** The character whose lead byte carried `lead` and that is followed by
      `count` continuation escapes. */
  function DecodeTail(s: string, lead: int, count: nat, least: int): (r: Option<(char, nat)>)
    ensures r.Some? ==> r.value.1 == 3 * (count + 1)
  {
    var cp := Gather(s, lead, 1, count);
    if cp.None? then None else Scalar(cp.value, least, 3 * (count + 1))
  }

  /** The character encoded by the escapes at the start of `s`, and how many
      characters of `s` spell it; `None` where `decodeURIComponent` throws.
      The lead byte fixes the width: `0xxxxxxx`, `110xxxxx`, `1110xxxx` or
      `11110xxx`. */
  function DecodeChar(s: string): (r: Option<(char, nat)>)
    ensures r.Some? ==> 3 <= r.value.1
  {
    var e0 := EscapeAt(s, 0);
    if e0.None? then None
    else
      var b0 := e0.value;
      if b0 < 0x80 then Some((b0 as char, 3))
      else if 0xC0 <= b0 < 0xE0 then DecodeTail(s, b0 - 0xC0, 1, 0x80)
      else if 0xE0 <= b0 < 0xF0 then DecodeTail(s, b0 - 0xE0, 2, 0x800)
      else if 0xF0 <= b0 < 0xF8 then DecodeTail(s, b0 - 0xF0, 3, 0x10000)
      else None
  }

  /** `decodeURIComponent(s)`; `None` where it throws `URIError`. */
  function Decode(s: string): Option<string>
    decreases |s|
  {
    if s == [] then Some([])
    else if s[0] != '%' then
      var rest := Decode(s[1..]);
      if rest.None? then None else Some([s[0]] + rest.value)
    else
      var d := DecodeChar(s);
      if d.None? || d.value.1 > |s| then None
      else
        var rest := Decode(s[d.value.1..]);
        if rest.None? then None else Some([d.value.0] + rest.value)
  }

  // ---------------------------------------------------------------------
  // The round trip

  lemma EscapeAtHead(b: Byte, post: string)
    ensures EscapeAt(Escape(b) + post, 0) == Some(b)
  {
    assert HexValue(HexDigit(b / 16)) == b / 16;
  }

  lemma EscapeAtShift(x: string, y: string, i: nat)
    ensures EscapeAt(x + y, |x| + i) == EscapeAt(y, i)
  {
    if i + 3 <= |y| {
      assert (x + y)[|x| + i] == y[i];
      assert (x + y)[|x| + i + 1] == y[i + 1];
      assert (x + y)[|x| + i + 2] == y[i + 2];
    }
  }

  /** The `i`-th escape of a run of escapes reads back as the `i`-th byte. */
  lemma {:induction false} EscapesAt(bs: seq<Byte>, rest: string, i: nat)
    requires i < |bs|
    ensures EscapeAt(Escapes(bs) + rest, 3 * i) == Some(bs[i])
    decreases i
  {
    var head, tail := Escape(bs[0]), Escapes(bs[1..]) + rest;
    assert Escapes(bs) == head + Escapes(bs[1..]);
    assert Escapes(bs) + rest == head + tail;
    if i == 0 {
      EscapeAtHead(bs[0], tail);
    } else {
      EscapesAt(bs[1..], rest, i - 1);
      assert bs[1..][i - 1] == bs[i];
      EscapeAtShift(head, tail, 3 * (i - 1));
      assert |head| + 3 * (i - 1) == 3 * i;
    }
  }

  lemma Split64(n: nat)
    ensures n == (n / 64) * 64 + n % 64
    ensures n / 64 / 64 == n / 4096
    ensures n / 4096 / 64 == n / 0x40000
  {
  }

  lemma DecodeTwoSlots(s: string, n: int, q: int, p: int)
    requires 0 <= q < 32 && 0 <= p < 64 && n == q * 64 + p
    requires EscapeAt(s, 0) == Some(0xC0 + q) && EscapeAt(s, 3) == Some(0x80 + p)
    ensures DecodeChar(s) == Scalar(n, 0x80, 6)
  {
    assert Gather(s, q, 1, 1) == Some(q * 64 + p);
  }

  lemma DecodeThreeSlots(s: string, n: int, q: int, p1: int, p2: int)
    requires 0 <= q < 16 && 0 <= p1 < 64 && 0 <= p2 < 64 && n == (q * 64 + p1) * 64 + p2
    requires EscapeAt(s, 0) == Some(0xE0 + q)
    requires EscapeAt(s, 3) == Some(0x80 + p1) && EscapeAt(s, 6) == Some(0x80 + p2)
    ensures DecodeChar(s) == Scalar(n, 0x800, 9)
  {
    assert Gather(s, q, 1, 2) == Gather(s, q * 64 + p1, 2, 1);
    assert Gather(s, q * 64 + p1, 2, 1) == Some((q * 64 + p1) * 64 + p2);
  }

  lemma DecodeFourSlots(s: string, n: int, q: int, p1: int, p2: int, p3: int)
    requires 0 <= q < 8 && 0 <= p1 < 64 && 0 <= p2 < 64 && 0 <= p3 < 64
    requires n == ((q * 64 + p1) * 64 + p2) * 64 + p3
    requires EscapeAt(s, 0) == Some(0xF0 + q) && EscapeAt(s, 3) == Some(0x80 + p1)
    requires EscapeAt(s, 6) == Some(0x80 + p2) && EscapeAt(s, 9) == Some(0x80 + p3)
    ensures DecodeChar(s) == Scalar(n, 0x10000, 12)
  {
    assert Gather(s, q, 1, 3) == Gather(s, q * 64 + p1, 2, 2);
    assert Gather(s, q * 64 + p1, 2, 2) == Gather(s, (q * 64 + p1) * 64 + p2, 3, 1);
    assert Gather(s, (q * 64 + p1) * 64 + p2, 3, 1) == Some(((q * 64 + p1) * 64 + p2) * 64 + p3);
  }

  lemma ThreeDigits(n: int)
    requires 0x800 <= n < 0x10000
    ensures n == ((n / 4096) * 64 + (n / 64) % 64) * 64 + n % 64
  {
    Split64(n);
    Split64(n / 64);
  }

  lemma FourDigits(n: int)
    requires 0x10000 <= n <= 0x10FFFF
    ensures n == (((n / 0x40000) * 64 + (n / 4096) % 64) * 64 + (n / 64) % 64) * 64 + n % 64
    ensures 0 <= n / 0x40000 < 8
  {
    Split64(n);
    Split64(n / 64);
    Split64(n / 4096);
  }

  lemma DecodeTwoByteChar(c: char, rest: string)
    requires 0x80 <= c as int < 0x800
    ensures DecodeChar(Escapes(Utf8(c)) + rest) == Some((c, 6))
  {
    var n, bs := c as int, Utf8(c);
    EscapesAt(bs, rest, 0);
    EscapesAt(bs, rest, 1);
    Split64(n);
    DecodeTwoSlots(Escapes(bs) + rest, n, n / 64, n % 64);
  }

  lemma DecodeThreeByteChar(c: char, rest: string)
    requires 0x800 <= c as int < 0x10000
    ensures DecodeChar(Escapes(Utf8(c)) + rest) == Some((c, 9))
  {
    var n, bs := c as int, Utf8(c);
    var q, p1, p2 := n / 4096, (n / 64) % 64, n % 64;
    ThreeDigits(n);
    assert bs == [0xE0 + q, 0x80 + p1, 0x80 + p2];
    EscapesAt(bs, rest, 0);
    EscapesAt(bs, rest, 1);
    EscapesAt(bs, rest, 2);
    DecodeThreeSlots(Escapes(bs) + rest, n, q, p1, p2);
  }

  lemma DecodeFourByteChar(c: char, rest: string)
    requires 0x10000 <= c as int
    ensures DecodeChar(Escapes(Utf8(c)) + rest) == Some((c, 12))
  {
    var n, bs := c as int, Utf8(c);
    var q, p1, p2, p3 := n / 0x40000, (n / 4096) % 64, (n / 64) % 64, n % 64;
    FourDigits(n);
    assert bs == [0xF0 + q, 0x80 + p1, 0x80 + p2, 0x80 + p3];
    var s := Escapes(bs) + rest;
    EscapesAt(bs, rest, 0);
    EscapesAt(bs, rest, 1);
    EscapesAt(bs, rest, 2);
    EscapesAt(bs, rest, 3);
    DecodeFourSlots(s, n, q, p1, p2, p3);
  }

  /** The escapes of one character decode back to that character and
      consume exactly themselves. */
  lemma DecodeCharOfEncoding(c: char, rest: string)
    requires !IsUnreserved(c)
    ensures DecodeChar(EncodeChar(c) + rest) == Some((c, |EncodeChar(c)|))
  {
    var n, bs := c as int, Utf8(c);
    assert EncodeChar(c) + rest == Escapes(bs) + rest;
    EscapesEncoded(bs);
    if n < 0x80 {
      EscapesAt(bs, rest, 0);
    } else if n < 0x800 {
      DecodeTwoByteChar(c, rest);
    } else if n < 0x10000 {
      DecodeThreeByteChar(c, rest);
    } else {
      DecodeFourByteChar(c, rest);
    }
  }

  /** `decodeURIComponent(encodeURIComponent(s)) == s`: no string is lost
      or altered by the encoding. */
  lemma {:induction false} DecodeEncode(s: string)
    ensures Decode(Encode(s)) == Some(s)
    decreases |s|
  {
    if s != [] {
      var c, e, rest := s[0], EncodeChar(s[0]), Encode(s[1..]);
      var t := e + rest;
      DecodeEncode(s[1..]);
      if IsUnreserved(c) {
        assert t[0] == c && t[1..] == rest;
      } else {
        DecodeCharOfEncoding(c, rest);
        assert t[|e|..] == rest;
      }
      assert s == [c] + s[1..];
    }
  }
}

=== FILE: wrappers.dfy ===
/** The one failure-compatible datatype the model needs: a value that may be
    absent (JavaScript's `undefined`, a parse that threw, a missing record). */
module Wrappers {

  datatype Option<+T> = None | Some(value: T) {

    /** The wrapped value, or `default` when there is none (JavaScript's `??`). */
    function GetOr(default: T): T {
      match this
      case Some(v) => v
      case None => default
    }
  }
}
